=== FILE: README.md ===
# Client-side form and job-list logic of the ingestion dashboard

This project is a Dafny model of the client side of a Next.js dashboard. The dashboard feeds a
retrieval service with books, articles, "contexts" and moral domains, and it watches the
ingestion job queue. The model covers the logic that sits between what the user types and the
HTTP calls the pages make:

- **Job list.** The jobs page filters its list with a case-insensitive search combined (AND)
  with a status filter and a type filter, and it tallies the jobs by status. Each job card picks
  a badge variant for its status and shows a duration in milliseconds, seconds or minutes. It
  shows the job result only for a completed job, and it displays an 8-character id prefix.
- **Ingest forms** (book, article, context):
  - comma-separated tag parsing, and the `join(", ")` text that the parsed tags are shown as;
  - the `parseInt(v) || default` tier input (the default is 1, 2 or 3);
  - a domain checkbox toggle that never introduces a duplicate;
  - the default-domain selection;
  - the lookup by source id, whose record is merged into the form with JavaScript truthiness
    fallbacks;
  - each form's required-field check;
  - the classification of the server's error body into the message the user sees;
  - resetting the form after an accepted submission;
  - the `isSubmitting` / `loadingChunk` flags, which end false on every path.
- **Edit forms** (book, article, context): the mapping of a fetched record into the form, the
  guards on a missing id or form, the validation, and the exact PATCH payload each form sends.
- **Moral-domain forms:**
  - newline-separated source lists;
  - the conflict prefill of the submission form;
  - the edit form's load guard, the trimmed target name of its PATCH, and its "not found"
    classification.
- **Search page:** input validation, the request body with a trimmed question, the default
  domain, the tier input, clearing the result before each request, and the classification of
  errors.

The model handles data in this way:

- **Server replies** are inputs of abstract datatypes: `FormKit.Reply`, `FormKit.Lookup`,
  `JobsPage.JobsReply`, `EditMoralDomainForm.DomainReply` and `SearchPage.SearchReply`.
- **Issued requests** are recorded in a `requests` sequence. This makes "nothing is sent" and the
  exact body or target of a request statements about state.
- **Toasts** are modelled as the notice value a handler returns.
- **Page components** become classes. Each class holds its React state as fields, and each event
  handler is a method with a `modifies` frame. The pure helpers become functions with lemmas.

The JavaScript semantics are written out explicitly:

- `""` and `0` are falsy, and arrays are always truthy (`Js`).
- `trim` and `toLowerCase` work on ASCII only (`Text`).
- `parseInt` skips leading whitespace, reads an optional sign and an optional `0x` prefix, then
  reads a digit run. Anything else gives `NaN`, which is `None` here (`JsNumber`).
- `Math.round(d / 1000)` on a non-negative integer is `(d + 500) / 1000` (`JobCard`).

Modules: `Js`, `Seqs`, `Text`, `Lists`, `JsNumber` and `FormKit` are shared. Each record kind has
one module: `BookRecord`, `ArticleRecord`, `ContextRecord` and `MoralDomainRecord`. Every other
module follows one source file: `UploadData`, `ArticleUploadForm`, `ContextUploadForm`,
`EditBookForm`, `EditArticleForm`, `EditContextForm`, `SubmitForm`, `EditMoralDomainForm`,
`SearchPage`, `Jobs`, `JobsPage` and `JobCard`.

## Model

| member | source | states |
|---|---|---|
| Seqs.SubseqMembers | src/app/client/jobs/page.tsx:61-71 | every element of a subsequence is an element of the sequence it was taken from |
| Seqs.SubseqRefl | src/app/client/jobs/page.tsx:61-71 | a filter that keeps everything yields a subsequence: every sequence is a subsequence of itself |
| Text.TrimStartSuffix | src/components/UploadData.tsx:113-119 | trimming the start removes a prefix made only of whitespace and leaves a suffix that does not start with whitespace |
| Text.TrimEndPrefix | src/components/UploadData.tsx:113-119 | trimming the end removes a suffix made only of whitespace and leaves a prefix that does not end with whitespace |
| Text.Trim | src/components/UploadData.tsx:113-119 | `trim()` yields a string with no edge whitespace and no longer than the input, made of the input's characters; it is empty iff the input is all whitespace; a trimmed string is left unchanged |
| Text.TrimLeadingSpace | src/components/UploadData.tsx:113-119 | a leading whitespace character does not change what `trim()` returns |
| Text.ToLower | src/app/client/jobs/page.tsx:63-65 | `toLowerCase()` keeps the length and lowers each ASCII letter in place |
| Text.ContainsAfterPrefix | src/app/client/search/page.tsx:94-110 | when a prefix lacks the first character of a phrase, the phrase occurs in prefix + text iff it occurs in the text |
| Text.Split | src/components/UploadData.tsx:113-119 | `split(sep)` always yields at least one piece |
| Text.SplitPiecesFree | src/components/UploadData.tsx:113-119 | no piece of `split(sep)` contains the separator |
| Text.JoinSplit | src/components/UploadData.tsx:109-119 | joining the pieces of `split(sep)` with the separator gives back the original text |
| Text.SplitAround | src/components/UploadData.tsx:109-119 | splitting around one separator splits each side independently |
| Text.SplitFree | src/components/UploadData.tsx:109-119 | a text without the separator splits into itself alone |
| Text.SplitJoin | src/components/UploadData.tsx:109-119 | splitting the join of separator-free pieces gives back those pieces |
| Lists.TrimAllPointwise | src/components/UploadData.tsx:113-119 | `map(trim)` keeps the length and trims each piece in place |
| Lists.CleanItems | src/components/UploadData.tsx:113-119 | after trim-and-drop-empty, every item is non-empty and trimmed, and the items are the trimmed pieces in their original order |
| Lists.ParseListItems | src/components/UploadData.tsx:113-119 | every parsed item is non-empty, trimmed and free of the separator, and the items are a subsequence of the trimmed pieces |
| Lists.CleanKeepsOut | src/components/UploadData.tsx:113-119 | trimming and dropping empty pieces never brings in a character that no piece had |
| Lists.CleanSingle | src/components/UploadData.tsx:113-119 | a single piece yields its trimmed text, or nothing when that is empty |
| Lists.CleanAppend | src/components/UploadData.tsx:113-119 | trim-and-drop-empty distributes over concatenation |
| Lists.CleanSpacePrefix | src/components/UploadData.tsx:109-119 | padding a piece with whitespace, as the `", "` joiner does, does not change what it parses to |
| Lists.CleanSplitJoin | src/components/UploadData.tsx:109-119 | clean separator-free items joined with the separator and padding parse back to themselves |
| Lists.CleanSplitCons | src/components/UploadData.tsx:109-119 | one item followed by separator, padding and the rest parses to the item followed by the parse of the rest |
| Lists.ParseJoinRoundTrip | src/components/UploadData.tsx:109-119 | parsing `items.join(sep + pad)` gives back items that are non-empty, trimmed and free of the separator |
| JsNumber.DigitRun | src/components/UploadData.tsx:124 | the digit run that `parseInt` reads is a prefix made of digits, and it stops at the first non-digit |
| JsNumber.HexRun | src/components/UploadData.tsx:124 | the run read after a `0x` prefix is the longest prefix made of hexadecimal digits: it stops only at the end of the text or at the first non-hex character |
| JsNumber.ParseIntNeedsDigit | src/components/UploadData.tsx:124 | `parseInt` returns a number only for a text that contains a digit |
| JsNumber.DigitChar | src/app/client/search/page.tsx:94 | a value below ten is written as the digit of that value |
| JsNumber.NatDecimal | src/app/client/search/page.tsx:94 | a natural number is written as a non-empty run of digits |
| JsNumber.NatDecimalValue | src/app/client/search/page.tsx:94 | the decimal text of a natural number reads back as that number |
| JsNumber.DigitRunAll | src/components/UploadData.tsx:124 | on a text made only of digits, the digit run is the whole text |
| JsNumber.ParseDecimal | src/components/UploadData.tsx:124 | `parseInt` of an integer's decimal text returns that integer |
| JsNumber.ParseSignedDigits | src/components/UploadData.tsx:124 | an optional minus sign followed by digits parses to the signed value of the digits |
| JsNumber.ParseDigits | src/components/UploadData.tsx:124 | a digit string never looks like a hex prefix, and its digit run is the whole string |
| JsNumber.IntOr | src/components/UploadData.tsx:124 | `parseInt(v) \|\| d` is never 0: it is the parsed value when that is non-zero, and otherwise the default |
| JsNumber.IntOrKeepsNonZero | src/components/UploadData.tsx:124 | typing a non-zero integer sets the tier to exactly that integer, with no clamping to 1..3 |
| JsNumber.IntOrWithoutDigits | src/components/UploadData.tsx:124 | a text without digits gives the default |
| FormKit.RemoveId | src/components/UploadData.tsx:324-345 | unchecking removes exactly the references with that id, keeps the rest in order, and keeps the list duplicate-free |
| FormKit.ToggleDomain | src/components/UploadData.tsx:324-345 | checking appends an absent id once and leaves a present one alone; unchecking removes it; other ids are unaffected; no duplicates are introduced |
| FormKit.FirstDomainRef | src/components/UploadData.tsx:202-206 | the default selection is the first loaded domain's id, or nothing when no domains loaded |
| FormKit.InitialDomainRef | src/components/UploadData.tsx:92-97 | after loading, an empty selection becomes the first domain; a non-empty selection is kept |
| FormKit.TagsAreItems | src/components/UploadData.tsx:113-119 | every parsed tag is non-empty, trimmed and comma-free |
| FormKit.TagsRoundTrip | src/components/UploadData.tsx:109-119 | parsing `tags.join(", ")` returns the same tags when they are non-empty, trimmed and comma-free |
| FormKit.TagsTextStable | src/components/UploadData.tsx:109-119 | once a tag text has been parsed, showing it again and re-parsing changes nothing |
| FormKit.SnapshotTitle | src/components/UploadData.tsx:152 | `data.title \|\| data.source_name \|\| fallback`: the first truthy of the three |
| FormKit.ErrorData | src/components/UploadData.tsx:208-214 | the error body is the parsed JSON iff the content type mentions `application/json`; otherwise it is `{error: text}` without `existing` |
| FormKit.CaughtNotice | src/components/UploadData.tsx:235-241 | a thrown error is a connection error showing its own message when it has one, and the toast is never empty when the form's connection text is not |
| FormKit.ExistingTitle | src/components/UploadData.tsx:219-221 | a conflict names `existing.title` when it is truthy, and otherwise the form's title |
| FormKit.IngestRejection | src/components/UploadData.tsx:216-232 | a conflict occurs iff the error mentions "already exists"; another truthy error is shown as it is; with no error text the form's fallback text, or "unexpected response" when there is none |
| FormKit.IngestNotice | src/components/UploadData.tsx:200-241 | a submission is reported as done iff the reply was accepted; a connection error is never reported for an accepted reply; a thrown request always gives a connection error, never with empty text; a form with its own failure text never reports an unexpected response |
| FormKit.ContainsNothingInEmpty | src/components/UploadData.tsx:216-217 | an empty text contains no non-empty phrase |
| FormKit.PlainTextRejection | src/components/UploadData.tsx:208-232 | for a non-JSON reply, a conflict occurs iff the body text mentions "already exists"; otherwise a non-empty text is shown, and an empty one gives the fallback |
| FormKit.UpdateNotice | src/components/EditBookForm.tsx:188-216 | an update is reported as done iff the reply was accepted; a rejection shows the body's truthy error, or "Unknown error", and a non-JSON rejection shows its text or "Unknown error"; a conflict or not-found is never reported; a thrown request shows its own message, and its text is never empty |
| FormKit.LookupNoticeOf | src/components/UploadData.tsx:138-166 | the lookup notice is "loaded" iff a record was found, "new id" iff the reply was 404, "failed to fetch" iff another non-2xx status came back, and "could not connect" iff the request threw |
| JobsPage.FilterJobs | src/app/client/jobs/page.tsx:61-71 | the shown jobs are a subsequence of the jobs, in order and never more; a job is shown iff it matches the search term AND the status filter AND the type filter |
| JobsPage.ContainsEmpty | src/app/client/jobs/page.tsx:65 | every string includes the empty string |
| JobsPage.FilterNothing | src/app/client/jobs/page.tsx:61-71 | an empty search with both filters on "all" shows every job |
| JobsPage.SearchWithoutTitleOrAuthor | src/app/client/jobs/page.tsx:63-65 | a job without a title or author matches iff its lowered id includes the lowered term |
| JobsPage.LowerIdempotent | src/app/client/jobs/page.tsx:63-65 | lowering a string twice is the same as lowering it once |
| JobsPage.SearchIgnoresTermCase | src/app/client/jobs/page.tsx:63-65 | the case of the search term never matters |
| JobsPage.NoResultUnlessCompleted | src/components/JobCard.tsx:138 | under a status filter other than "completed" no listed card shows a result block |
| JobsPage.CompletedShowsResult | src/components/JobCard.tsx:138 | under the "completed" filter a listed card shows its result block exactly when the job has a result |
| JobsPage.BucketsPartition | src/app/client/jobs/page.tsx:73-87 | the four status buckets add up to the number of jobs |
| JobsPage.GetStatusCounts | src/app/client/jobs/page.tsx:73-87 | total is the number of jobs, each bucket counts the jobs with that status, and the buckets add up to the total |
| JobsPage.JobsView.constructor | src/app/client/jobs/page.tsx:23-28 | the page starts loading, with no jobs, no error, an empty search and both filters on "all" |
| JobsPage.JobsView.FilteredJobs | src/app/client/jobs/page.tsx:61-71 | the list shown is a subsequence of the loaded jobs |
| JobsPage.JobsView.FetchJobs | src/app/client/jobs/page.tsx:30-50 | loading ends false; a loaded list replaces the jobs and clears the error; a failure keeps the jobs and sets "Failed to fetch jobs", the thrown message, or "Unknown error" |
| JobsPage.JobsView.SetSearchTerm | src/app/client/jobs/page.tsx:26 | sets the search term |
| JobsPage.JobsView.SetStatusFilter | src/app/client/jobs/page.tsx:27 | sets the status filter |
| JobsPage.JobsView.SetTypeFilter | src/app/client/jobs/page.tsx:28 | sets the type filter |
| JobsPage.JobsView.StatusCountsNow | src/app/client/jobs/page.tsx:73-87 | the counts are taken over all loaded jobs and ignore the search and the filters |
| JobCard.StatusVariant | src/components/JobCard.tsx:40-53 | failed iff destructive, pending iff secondary, processing or completed iff default |
| JobCard.Duration | src/components/JobCard.tsx:72-82 | no duration iff a timestamp is missing; milliseconds iff d < 1000 (negative d included); minutes iff d >= 60000, a value >= 1 within half a minute of d; otherwise seconds in [1, 60] within half a second of d |
| JobCard.SixtySeconds | src/components/JobCard.tsx:80 | just under a minute rounds to "60s" rather than "1m" |
| JobCard.ShortId | src/components/JobCard.tsx:151 | the displayed id is the prefix of length min(8, length of the id) |
| BookRecord.WithField | src/components/UploadData.tsx:120-126 | the edited field takes the text, or the tier takes `parseInt(v) \|\| 1`, never 0; every other field, the tags and the domains are unchanged |
| UploadData.MergeLookup | src/components/UploadData.tsx:150-161 | title, author, tier, ISBN and date are taken when truthy, and tags and domains when they are arrays; source id, content and chapter are kept; a non-zero tier stays non-zero |
| UploadData.MergeEmpty | src/components/UploadData.tsx:150-161 | an empty record changes nothing |
| UploadData.MergeIdempotent | src/components/UploadData.tsx:150-161 | merging the same record twice is the same as merging it once |
| UploadData.MergeOwnRecord | src/components/UploadData.tsx:150-161 | merging a book's own record restores the book, apart from the form's source id, content and chapter |
| UploadData.OptionalFields | src/components/UploadData.tsx:175-186 | content, ISBN, date, chapter, tags and tier never decide whether a book may be sent |
| UploadData.ResetBook | src/components/UploadData.tsx:202-206 | after success the form is the default book (tier 1, everything empty) with the first domain selected |
| UploadData.SubmitNotice | src/components/UploadData.tsx:200-241 | the submission is reported as done iff it was accepted, a failure never has an empty text, and neither does a connection error |
| UploadData.BookUploadView.constructor | src/components/UploadData.tsx:73-78 | the form starts with the default book, no domains, the domains loading and an empty tag text |
| UploadData.BookUploadView.LoadDomains | src/components/UploadData.tsx:80-106 | the domain list is requested and stored; an empty selection becomes the first domain; loading ends |
| UploadData.BookUploadView.HandleChange | src/components/UploadData.tsx:120-126 | the form becomes the result of editing that one field |
| UploadData.BookUploadView.SetTagInput | src/components/UploadData.tsx:113 | sets the tag text |
| UploadData.BookUploadView.SyncTags | src/components/UploadData.tsx:113-119 | the tags become the parse of the tag text; nothing else changes |
| UploadData.BookUploadView.TagsEffect | src/components/UploadData.tsx:109-111 | the tag text becomes the tags joined with ", " |
| UploadData.BookUploadView.ToggleDomainRef | src/components/UploadData.tsx:324-345 | the domain list is toggled for that id |
| UploadData.BookUploadView.BlurSourceId | src/components/UploadData.tsx:129-170 | a source id that is blank once trimmed sends nothing and changes nothing; otherwise the trimmed id is looked up, a found record is merged, and loadingChunk ends false |
| UploadData.BookUploadView.HandleSubmit | src/components/UploadData.tsx:172-245 | a form missing a field sends nothing; otherwise the form is posted, and only an accepted reply resets it; isSubmitting ends false on every path |
| EditBookForm.FromRecord | src/components/EditBookForm.tsx:90-101 | missing strings become "", the title falls back to source_name and then "", a falsy tier becomes 1, and non-array lists become [] |
| EditBookForm.FromRecordRoundTrip | src/components/EditBookForm.tsx:90-101 | a stored book with a non-zero tier loads back unchanged |
| EditBookForm.FromEmptyRecord | src/components/EditBookForm.tsx:90-101 | an empty record loads as the default book |
| EditBookForm.EditBookView.constructor | src/components/EditBookForm.tsx:46-51 | no form yet; the book and the domains are loading |
| EditBookForm.EditBookView.LoadDomains | src/components/EditBookForm.tsx:54-70 | the domain list is requested and stored, with no default selection |
| EditBookForm.EditBookView.FetchBook | src/components/EditBookForm.tsx:72-112 | an empty id fetches nothing; otherwise the book is fetched by id, a found record becomes the form and its tag text with no notice, any other reply raises its lookup notice, and loading ends |
| EditBookForm.EditBookView.HandleChange | src/components/EditBookForm.tsx:131-134 | edits one field; a form that has not loaded stays absent |
| EditBookForm.EditBookView.SetTagInput | src/components/EditBookForm.tsx:123 | sets the tag text |
| EditBookForm.EditBookView.SyncTags | src/components/EditBookForm.tsx:123-129 | the tags become the parse of the tag text; an absent form stays absent |
| EditBookForm.EditBookView.TagsEffect | src/components/EditBookForm.tsx:117-121 | a loaded form's tags are shown joined with ", " |
| EditBookForm.EditBookView.HandleDomainChange | src/components/EditBookForm.tsx:136-154 | the domain list is toggled; an absent form stays absent |
| EditBookForm.EditBookView.HandleSubmit | src/components/EditBookForm.tsx:156-220 | with no form or no id nothing happens; a form missing a field is refused before anything is sent; otherwise all ten book fields are sent to that id, and the update notice follows |
| ArticleRecord.WithField | src/components/ArticleUploadForm.tsx:106-109 | the edited field takes the text, or the tier takes `parseInt(v) \|\| 2`, never 0; every other field is unchanged |
| ArticleUploadForm.MergeLookup | src/components/ArticleUploadForm.tsx:145-157 | title, author, tier, URL and date are taken when truthy, and tags and domains when they are arrays; source id and content are kept |
| ArticleUploadForm.MergeEmpty | src/components/ArticleUploadForm.tsx:145-157 | an empty record changes nothing |
| ArticleUploadForm.MergeIdempotent | src/components/ArticleUploadForm.tsx:145-157 | merging the same record twice is the same as merging it once |
| ArticleUploadForm.MergeOwnRecord | src/components/ArticleUploadForm.tsx:145-157 | merging an article's own record restores it, apart from the source id and content |
| ArticleUploadForm.TagsAndUrlOptional | src/components/ArticleUploadForm.tsx:171-180 | empty tags and an empty URL still pass the check (`!tags` tests an always-truthy array) |
| ArticleUploadForm.ResetArticle | src/components/ArticleUploadForm.tsx:215-220 | after success the form is the default article (tier 2) with the first domain selected |
| FormKit.FormSubmitNotice | src/components/ArticleUploadForm.tsx:200-252 | for the article and context forms: done iff accepted; a missing error text gives the form's own failure text ("Failed to submit article." or "Failed to submit context."), never "unexpected response"; a connection error never has empty text |
| ArticleUploadForm.ArticleUploadView.constructor | src/components/ArticleUploadForm.tsx:71-76 | the form starts with the default article, domains loading |
| ArticleUploadForm.ArticleUploadView.LoadDomains | src/components/ArticleUploadForm.tsx:78-104 | the domain list is requested and stored; an empty selection becomes the first domain |
| ArticleUploadForm.ArticleUploadView.HandleChange | src/components/ArticleUploadForm.tsx:106-109 | the form becomes the result of editing that one field |
| ArticleUploadForm.ArticleUploadView.SetTagInput | src/components/ArticleUploadForm.tsx:115 | sets the tag text |
| ArticleUploadForm.ArticleUploadView.SyncTags | src/components/ArticleUploadForm.tsx:115-121 | the tags become the parse of the tag text |
| ArticleUploadForm.ArticleUploadView.TagsEffect | src/components/ArticleUploadForm.tsx:111-113 | the tag text becomes the tags joined with ", " |
| ArticleUploadForm.ArticleUploadView.ToggleDomainRef | src/components/ArticleUploadForm.tsx:340-361 | the domain list is toggled for that id |
| ArticleUploadForm.ArticleUploadView.BlurSourceId | src/components/ArticleUploadForm.tsx:124-166 | a blank trimmed id sends nothing; otherwise the trimmed id is looked up and a found record merged; loadingChunk ends false |
| ArticleUploadForm.ArticleUploadView.HandleSubmit | src/components/ArticleUploadForm.tsx:168-256 | a form with an empty required field, no domain or tier 0 sends nothing; otherwise it is posted, and only an accepted reply resets it; isSubmitting ends false |
| EditArticleForm.FromRecord | src/components/EditArticleForm.tsx:92-102 | missing strings become "", the title falls back to source_name, a falsy tier becomes 2, and non-array lists become [] |
| EditArticleForm.FromRecordRoundTrip | src/components/EditArticleForm.tsx:92-102 | a stored article with a non-zero tier loads back unchanged |
| EditArticleForm.FromEmptyRecord | src/components/EditArticleForm.tsx:92-102 | an empty record loads as the default article |
| EditArticleForm.Payload | src/components/EditArticleForm.tsx:167-176 | the PATCH body holds exactly title, author, tier, content, URL, date, tags and domains |
| EditArticleForm.PayloadIgnoresOnlySourceId | src/components/EditArticleForm.tsx:167-176 | two forms send the same body iff they differ at most in their source id |
| EditArticleForm.EditArticleView.constructor | src/components/EditArticleForm.tsx:49-54 | no form yet; the article and the domains are loading |
| EditArticleForm.EditArticleView.LoadDomains | src/components/EditArticleForm.tsx:57-73 | the domain list is requested and stored |
| EditArticleForm.EditArticleView.FetchArticle | src/components/EditArticleForm.tsx:75-112 | an empty id fetches nothing; otherwise the article is fetched by id; a found record becomes the form and its tag text with no notice, and any other reply raises its lookup notice |
| EditArticleForm.EditArticleView.HandleChange | src/components/EditArticleForm.tsx:132-135 | edits one field; an absent form stays absent |
| EditArticleForm.EditArticleView.SetTagInput | src/components/EditArticleForm.tsx:124 | sets the tag text |
| EditArticleForm.EditArticleView.SyncTags | src/components/EditArticleForm.tsx:124-130 | the tags become the parse of the tag text; an absent form stays absent |
| EditArticleForm.EditArticleView.TagsEffect | src/components/EditArticleForm.tsx:118-122 | a loaded form's tags are shown joined with ", " |
| EditArticleForm.EditArticleView.HandleDomainChange | src/components/EditArticleForm.tsx:137-155 | the domain list is toggled; an absent form stays absent |
| EditArticleForm.EditArticleView.HandleSubmit | src/components/EditArticleForm.tsx:157-206 | with no form or no id nothing happens; a form missing title, author or domain is refused; otherwise the body without source id is sent to that id |
| ContextRecord.WithField | src/components/ContextUploadForm.tsx:108-111 | the edited field takes the text, or the tier takes `parseInt(v) \|\| 3`, never 0; the rest is unchanged |
| ContextUploadForm.MergeLookup | src/components/ContextUploadForm.tsx:148-157 | only the title, the tier (when truthy), the tags and the domains (when arrays) change; source id and content are kept |
| ContextUploadForm.MergeEmpty | src/components/ContextUploadForm.tsx:148-157 | an empty record changes nothing |
| ContextUploadForm.MergeIdempotent | src/components/ContextUploadForm.tsx:148-157 | merging the same record twice is the same as merging it once |
| ContextUploadForm.MergeOwnRecord | src/components/ContextUploadForm.tsx:148-157 | merging a context's own record restores it, apart from the source id and content |
| ContextUploadForm.ContentAndTagsOptional | src/components/ContextUploadForm.tsx:171-175 | content and tags never decide whether a context may be sent |
| ContextUploadForm.ResetContext | src/components/ContextUploadForm.tsx:186-192 | after success the form is the default context (tier 3) with the first domain selected |
| ContextUploadForm.ContextUploadView.constructor | src/components/ContextUploadForm.tsx:60-65 | the form starts with the default context, domains loading |
| ContextUploadForm.ContextUploadView.LoadDomains | src/components/ContextUploadForm.tsx:68-93 | the domain list is requested and stored; an empty selection becomes the first domain |
| ContextUploadForm.ContextUploadView.HandleChange | src/components/ContextUploadForm.tsx:108-111 | the form becomes the result of editing that one field |
| ContextUploadForm.ContextUploadView.SetTagInput | src/components/ContextUploadForm.tsx:100 | sets the tag text |
| ContextUploadForm.ContextUploadView.SyncTags | src/components/ContextUploadForm.tsx:100-106 | the tags become the parse of the tag text |
| ContextUploadForm.ContextUploadView.TagsEffect | src/components/ContextUploadForm.tsx:96-98 | the tag text becomes the tags joined with ", " |
| ContextUploadForm.ContextUploadView.HandleDomainChange | src/components/ContextUploadForm.tsx:113-129 | the domain list is toggled for that id |
| ContextUploadForm.ContextUploadView.BlurSourceId | src/components/ContextUploadForm.tsx:132-166 | a blank trimmed id sends nothing; otherwise the trimmed id is looked up and a found record merged |
| ContextUploadForm.ContextUploadView.HandleSubmit | src/components/ContextUploadForm.tsx:168-220 | a form missing title, source id or domain sends nothing (isSubmitting reset at once); otherwise it is posted and reset only on acceptance |
| EditContextForm.FromRecord | src/components/EditContextForm.tsx:96-103 | missing strings become "", the title falls back to source_name, a falsy tier becomes 3, and non-array lists become [] |
| EditContextForm.FromRecordRoundTrip | src/components/EditContextForm.tsx:96-103 | a stored context with a non-zero tier loads back unchanged |
| EditContextForm.FromEmptyRecord | src/components/EditContextForm.tsx:96-103 | an empty record loads as the default context |
| EditContextForm.EditContextView.constructor | src/components/EditContextForm.tsx:53-58 | no form yet; the context and the domains are loading |
| EditContextForm.EditContextView.LoadDomains | src/components/EditContextForm.tsx:61-77 | the domain list is requested and stored |
| EditContextForm.EditContextView.FetchContext | src/components/EditContextForm.tsx:79-116 | an empty id fetches nothing; otherwise the context is fetched by id; a found record becomes the form and its tag text with no notice, and any other reply raises its lookup notice |
| EditContextForm.EditContextView.HandleChange | src/components/EditContextForm.tsx:133-136 | edits one field; an absent form stays absent |
| EditContextForm.EditContextView.SetTagInput | src/components/EditContextForm.tsx:125 | sets the tag text |
| EditContextForm.EditContextView.SyncTags | src/components/EditContextForm.tsx:125-131 | the tags become the parse of the tag text; an absent form stays absent |
| EditContextForm.EditContextView.TagsEffect | src/components/EditContextForm.tsx:119-123 | a loaded form's tags are shown joined with ", " |
| EditContextForm.EditContextView.HandleDomainChange | src/components/EditContextForm.tsx:138-156 | the domain list is toggled; an absent form stays absent |
| EditContextForm.EditContextView.HandleSubmit | src/components/EditContextForm.tsx:158-218 | with no form or no id nothing happens; a form missing title, source id or domain is refused; otherwise the whole context is sent to that id |
| MoralDomainRecord.FromStored | src/components/SubmitForm.tsx:147-162 | the stored `domain` becomes the form's `domain_name` |
| MoralDomainRecord.ToStored | src/components/SubmitForm.tsx:147-162 | the form's `domain_name` becomes the stored `domain` |
| MoralDomainRecord.StoredRoundTrip | src/components/SubmitForm.tsx:147-162 | renaming the key loses nothing, in either direction |
| MoralDomainRecord.WithText | src/components/SubmitForm.tsx:74-76 | the edited text field takes the value; every other text field and every source list are unchanged |
| MoralDomainRecord.SourcesAreItems | src/components/SubmitForm.tsx:79-88 | every parsed source is non-empty, trimmed and a single line |
| MoralDomainRecord.SourcesRoundTrip | src/components/SubmitForm.tsx:79-88 | the textarea's `join("\n")` of such sources parses back to the same list |
| MoralDomainRecord.SourcesTextStable | src/components/SubmitForm.tsx:79-88 | a parsed list survives being shown and read again |
| MoralDomainRecord.WithSources | src/components/SubmitForm.tsx:79-88 | the edited list becomes the parsed lines; every other field is unchanged |
| SubmitForm.ExistingName | src/components/SubmitForm.tsx:119-121 | a conflict names `existing.domain` when truthy, otherwise the form's name |
| SubmitForm.DomainRejection | src/components/SubmitForm.tsx:117-169 | a conflict iff the error mentions "already exists"; another truthy error is shown; "unexpected response" iff there is no error text |
| SubmitForm.SubmitNotice | src/components/SubmitForm.tsx:90-178 | reported as done iff accepted; a rejection classification only for a rejected reply; never a missing-field or not-found notice; a connection error never has empty text |
| SubmitForm.ConflictRecord | src/components/SubmitForm.tsx:146-162 | a stored record is carried only by a rejected reply |
| SubmitForm.PrefillOnlyOnConflict | src/components/SubmitForm.tsx:117-162 | the form changes only on a conflict and never after acceptance; a named conflict record is what the form then shows |
| SubmitForm.PlainTextConflict | src/components/SubmitForm.tsx:108-121 | a plain-text reply is a conflict iff the text says "already exists", and it never prefills the form |
| SubmitForm.SubmitView.constructor | src/components/SubmitForm.tsx:33-71 | the form opens on the default record ("Moral Foundations", "foundational", "global", ...) |
| SubmitForm.SubmitView.HandleChange | src/components/SubmitForm.tsx:74-76 | the form becomes the result of editing that one text field |
| SubmitForm.SubmitView.HandleArrayChange | src/components/SubmitForm.tsx:79-88 | the list becomes the parse of the textarea |
| SubmitForm.SubmitView.HandleSubmit | src/components/SubmitForm.tsx:90-182 | always posts the form, with no client check; the notice classifies the reply; the form is replaced only by a conflict's record; isSubmitting ends false |
| EditMoralDomainForm.DomainNoticeOf | src/components/EditMoralDomainForm.tsx:51-79 | loaded iff a truthy body arrived; a falsy body shows the invalid-data text; an HTTP error states its status and text; a thrown error shows its own message, or the load fallback when it has none; a failure never has an empty message |
| EditMoralDomainForm.UpdateNoticeOf | src/components/EditMoralDomainForm.tsx:128-154 | done iff accepted; for a JSON error body, not-found (naming the form's domain) iff the error mentions "not found", another truthy error shown as it is, and an unexpected response when there is no error; a body that fails to parse, or a thrown request, gives a connection error that shows the thrown message and is never empty |
| EditMoralDomainForm.PlainTextNotFound | src/components/EditMoralDomainForm.tsx:133-141 | a plain-text rejection is "not found" iff the text says so |
| EditMoralDomainForm.EditMoralDomainView.constructor | src/components/EditMoralDomainForm.tsx:45-47 | no form yet; loading |
| EditMoralDomainForm.EditMoralDomainView.LoadDomain | src/components/EditMoralDomainForm.tsx:50-86 | an empty name fetches nothing; otherwise the trimmed name is fetched, and a truthy body becomes the form; loading ends false on every path |
| EditMoralDomainForm.EditMoralDomainView.HandleChange | src/components/EditMoralDomainForm.tsx:90-92 | edits one text field; an absent form stays absent |
| EditMoralDomainForm.EditMoralDomainView.HandleArrayChange | src/components/EditMoralDomainForm.tsx:95-104 | the list becomes the parse of the textarea; an absent form stays absent |
| EditMoralDomainForm.EditMoralDomainView.HandleSubmit | src/components/EditMoralDomainForm.tsx:106-158 | no form means nothing happens; a name that is blank once trimmed is refused; otherwise the record is sent to the edited, trimmed name |
| SearchPage.BuildBody | src/app/client/search/page.tsx:73-79 | the body carries the trimmed (non-empty) question and the other inputs as entered, and nothing else |
| SearchPage.FailureNotice | src/app/client/search/page.tsx:106-112 | a network error iff the message mentions "Failed to fetch"; otherwise the message, or "Unknown error" |
| SearchPage.SearchNoticeOf | src/app/client/search/page.tsx:90-112 | an answer iff the reply answered, with a warning iff the answer is empty or missing |
| SearchPage.HttpErrorNotice | src/app/client/search/page.tsx:91-112 | an HTTP error is shown as "HTTP status: text", unless its text mentions "Failed to fetch" |
| SearchPage.SearchView.constructor | src/app/client/search/page.tsx:26-43 | tier 3, no domain, no result, domains loading |
| SearchPage.SearchView.LoadDomains | src/app/client/search/page.tsx:46-61 | a non-empty list selects its first domain; loading ends |
| SearchPage.SearchView.SetQuestion | src/app/client/search/page.tsx:26 | sets the question |
| SearchPage.SearchView.SetDomain | src/app/client/search/page.tsx:152 | sets the domain |
| SearchPage.SearchView.SetTier | src/app/client/search/page.tsx:171 | the tier becomes `parseInt(v) \|\| 3`, never 0 |
| SearchPage.SearchView.SetInstructions | src/app/client/search/page.tsx:31 | sets the instructions |
| SearchPage.SearchView.SetMoralFoundation | src/app/client/search/page.tsx:37 | sets the moral foundation |
| SearchPage.SearchView.HandleSearch | src/app/client/search/page.tsx:63-116 | without a question or domain nothing is sent and the result stays; otherwise the result is cleared, the body sent, and only an answer is kept; loadingSearch ends false |

## Left out

- Network I/O: `fetch`, `response.json()` and `text()`, headers and the base URL. Every reply is an input value; `encodeURIComponent` is not modelled, and the request records the trimmed name it would encode.
- Toasts, console logging and all rendering (cards, buttons, badges, date display). A handler's toast appears only as the notice value it returns.
- Polling: the jobs page refetches every 10 seconds. Each fetch is one `FetchJobs` call; the timer is not modelled.
- Date parsing in the job card. Timestamps are integer milliseconds.
- The JSON parse of a 2xx body in the article, edit-book and edit-context forms: if that parse throws, the real form shows a connection error and skips the reset. The model treats every accepted reply as a success.
- React scheduling: state updates are sequential, and the effect that rewrites the tag text runs as the separate `TagsEffect` method. The stale `formData` the domain-loading effect reads at mount is not modelled; the current selection is used.
- SubmitForm.SubmitView.constructor: the long default policy text, source lists and rationale are parameters; only the short header fields are constants.
- SearchPage.SearchView.constructor: the default question, instructions and moral-foundation texts are parameters.
- The conflict prefill assumes the server's `existing` record has every field; a partial record is not modelled.
- Whitespace and case are ASCII only; Unicode whitespace for `trim` and non-ASCII `toLowerCase` are not modelled.
- `parseInt` is exact on unbounded integers; precision loss above 2^53 and `parseInt` results beyond the safe range are not modelled.
- The `onSuccess` callback of the edit forms (EditBookForm.tsx:203, EditArticleForm.tsx:189, EditContextForm.tsx:201, EditMoralDomainForm.tsx:130): it fires exactly when the returned notice is `Submitted`; what the parent component does with it is outside the model.
- The edit forms given an empty id return before loading finishes, so `loading` stays true; the model keeps that as written.
- The job-detail page, the queue-status widget, the sidebar and the static route pages hold no modelled logic. None of the modelled pages has a pager or a delete action, and the jobs page polls until it unmounts, whatever the jobs' statuses.

=== FILE: article_record.dfy ===
/** The `ArticleData` record the article ingest form and the article edit form share. */
module ArticleRecord {
  import opened Js
  import opened JsNumber
  import opened FormKit

  datatype Article = Article(
    sourceId: string,
    title: string,
    author: string,
    domain_ref: seq<DomainRef>,
    tier: int,
    content: string,
    url: string,
    publication_date: string,
    tags: seq<string>)

  /** The tier an article gets when the tier input holds no non-zero integer. */
  const DefaultTier := 2

  const DefaultArticle := Article("", "", "", [], DefaultTier, "", "", "", [])

  /** The fields `handleChange` edits from a text input. */
  datatype Field = SourceId | Title | Author | Tier | Content | Url | PublicationDate

  function Get(a: Article, f: Field): FieldValue {
    match f
    case SourceId => Text(a.sourceId)
    case Title => Text(a.title)
    case Author => Text(a.author)
    case Tier => Number(a.tier)
    case Content => Text(a.content)
    case Url => Text(a.url)
    case PublicationDate => Text(a.publication_date)
  }

  /**
   * `handleChange(field, value)`: the named field takes the input text, or for
   * the tier `parseInt(value) || 2`; every other field is kept.
   */
  function WithField(a: Article, f: Field, value: string): (r: Article)
    ensures f != Tier ==> Get(r, f) == Text(value)
    ensures f == Tier ==> r.tier == IntOr(value, DefaultTier) && r.tier != 0
    ensures forall g: Field :: g != f ==> Get(r, g) == Get(a, g)
    ensures r.tags == a.tags && r.domain_ref == a.domain_ref
  {
    match f
    case SourceId => a.(sourceId := value)
    case Title => a.(title := value)
    case Author => a.(author := value)
    case Tier => a.(tier := IntOr(value, DefaultTier))
    case Content => a.(content := value)
    case Url => a.(url := value)
    case PublicationDate => a.(publication_date := value)
  }

  /** The article as a lookup returns it: every field present, no `source_name`, ISBN or chapter. */
  function ToSnapshot(a: Article): Snapshot {
    Snapshot(Some(a.sourceId), Some(a.title), None, Some(a.author), Some(a.tier), Some(a.content),
             Some(a.url), None, Some(a.publication_date), None, Some(a.tags), Some(a.domain_ref))
  }
}

=== FILE: article_upload_form.dfy ===
/** The article ingest form: its state, the lookup by source id, and the submission. */
module ArticleUploadForm {
  import opened Js
  import opened Text
  import opened FormKit
  import opened ArticleRecord

  /** The requests the form issues. */
  datatype Request =
    | DomainList
    | LastChunk(id: string)
    | IngestArticle(body: Article)

  /** The form's own text for a rejection without an error text. */
  const SubmitFallback := "Failed to submit article."

  /**
   * The lookup merge: title, author, tier, URL and publication date are taken
   * from the record when truthy (the title falling back to `source_name`),
   * tags and domains when they are arrays; source id and content are kept.
   */
  function MergeLookup(prev: Article, data: Snapshot): (r: Article)
    ensures r.sourceId == prev.sourceId && r.content == prev.content
    ensures r.title == SnapshotTitle(data, prev.title)
    ensures r.author == (if TruthyStr(data.author) then data.author.value else prev.author)
    ensures r.tier == (if TruthyNum(data.tier) then data.tier.value else prev.tier)
    ensures r.url == (if TruthyStr(data.url) then data.url.value else prev.url)
    ensures r.publication_date == (if TruthyStr(data.publication_date) then data.publication_date.value else prev.publication_date)
    ensures r.tags == (if data.tags.Some? then data.tags.value else prev.tags)
    ensures r.domain_ref == (if data.domain_ref.Some? then data.domain_ref.value else prev.domain_ref)
    ensures prev.tier != 0 ==> r.tier != 0
  {
    prev.(
      title := SnapshotTitle(data, prev.title),
      author := OrStr(data.author, prev.author),
      domain_ref := ArrayOr(data.domain_ref, prev.domain_ref),
      tier := OrNum(data.tier, prev.tier),
      url := OrStr(data.url, prev.url),
      publication_date := OrStr(data.publication_date, prev.publication_date),
      tags := ArrayOr(data.tags, prev.tags))
  }

  /** A record with nothing in it changes nothing. */
  lemma MergeEmpty(prev: Article)
    ensures MergeLookup(prev, EmptySnapshot) == prev
  {
  }

  /** Merging the same record twice is merging it once. */
  lemma MergeIdempotent(prev: Article, data: Snapshot)
    ensures MergeLookup(MergeLookup(prev, data), data) == MergeLookup(prev, data)
  {
  }

  /** Merging an article's own record restores it, except for the form's source id and content. */
  lemma MergeOwnRecord(prev: Article, a: Article)
    requires a.title != "" && a.author != "" && a.tier != 0 && a.url != "" && a.publication_date != ""
    ensures MergeLookup(prev, ToSnapshot(a)) == a.(sourceId := prev.sourceId, content := prev.content)
  {
  }

  /**
   * The article form demands a title, an author, a source id, at least one
   * domain, content, a publication date and a non-zero tier. Its `!tags` test
   * is on an array, which is always truthy, so it never fails.
   */
  predicate MissingRequired(a: Article) {
    a.title == "" || a.author == "" || a.sourceId == "" || |a.domain_ref| == 0
    || a.content == "" || a.publication_date == "" || a.tier == 0
  }

  /** An empty tag list and an empty URL pass the check. */
  lemma TagsAndUrlOptional(a: Article, tags: seq<string>, url: string)
    ensures MissingRequired(a.(tags := tags, url := url)) == MissingRequired(a)
  {
  }

  /** The form after an accepted submission: the empty article with the first domain selected. */
  function ResetArticle(domains: seq<DomainOption>): (a: Article)
    ensures a.domain_ref == FirstDomainRef(domains)
    ensures a.(domain_ref := []) == DefaultArticle
  {
    DefaultArticle.(domain_ref := FirstDomainRef(domains))
  }

  class ArticleUploadView {
    var formData: Article
    var isSubmitting: bool
    var domains: seq<DomainOption>
    var loadingDomains: bool
    var loadingChunk: bool
    var tagInput: string
    var requests: seq<Request>

    /** Between handlers no request is in flight, and the tier is never 0. */
    predicate Valid()
      reads this
    {
      !isSubmitting && !loadingChunk && formData.tier != 0
    }

    constructor ()
      ensures Valid()
      ensures formData == DefaultArticle && domains == [] && loadingDomains && tagInput == "" && requests == []
    {
      formData := DefaultArticle;
      isSubmitting := false;
      domains := [];
      loadingDomains := true;
      loadingChunk := false;
      tagInput := "";
      requests := [];
    }

    /**
     * The domain list arrives (`Some`) or fails to load (`None`); an empty
     * selection then becomes the first domain.
     */
    method LoadDomains(reply: Option<seq<DomainOption>>)
      requires Valid()
      modifies this`domains, this`formData, this`requests, this`loadingDomains
      ensures Valid()
      ensures !loadingDomains && requests == old(requests) + [DomainList]
      ensures reply.Some? ==>
        domains == reply.value && formData == old(formData).(domain_ref := InitialDomainRef(old(formData.domain_ref), reply.value))
      ensures reply.None? ==> domains == old(domains) && formData == old(formData)
    {
      requests := requests + [DomainList];
      if reply.Some? {
        domains := reply.value;
        formData := formData.(domain_ref := InitialDomainRef(formData.domain_ref, reply.value));
      }
      loadingDomains := false;
    }

    method HandleChange(f: Field, value: string)
      requires Valid()
      modifies this`formData
      ensures Valid()
      ensures formData == WithField(old(formData), f, value)
    {
      formData := WithField(formData, f, value);
    }

    method SetTagInput(text: string)
      modifies this`tagInput
      ensures tagInput == text
    {
      tagInput := text;
    }

    /** `syncTags`: the tag list becomes what the tag text parses to. */
    method SyncTags()
      requires Valid()
      modifies this`formData
      ensures Valid()
      ensures formData == old(formData).(tags := ParseTags(tagInput))
    {
      formData := formData.(tags := ParseTags(tagInput));
    }

    /**
     * The effect on `formData.tags`, run after every handler that replaces the
     * tag list: the tag text is rewritten from the list.
     */
    method TagsEffect()
      modifies this`tagInput
      ensures tagInput == TagsText(formData.tags)
    {
      tagInput := TagsText(formData.tags);
    }

    /** A domain checkbox changed. */
    method ToggleDomainRef(id: string, checked: bool)
      requires Valid()
      modifies this`formData
      ensures Valid()
      ensures formData == old(formData).(domain_ref := ToggleDomain(old(formData.domain_ref), id, checked))
    {
      formData := formData.(domain_ref := ToggleDomain(formData.domain_ref, id, checked));
    }

    /**
     * `handleSourceIdBlur`: a source id that is blank once trimmed looks
     * nothing up; otherwise the trimmed id is looked up and a found record is
     * merged into the form.
     */
    method BlurSourceId(lookup: Lookup) returns (notice: Option<LookupNotice>)
      requires Valid()
      modifies this`formData, this`requests, this`loadingChunk
      ensures Valid()
      ensures Trim(old(formData.sourceId)) == "" ==>
        notice.None? && requests == old(requests) && formData == old(formData)
      ensures Trim(old(formData.sourceId)) != "" ==>
        && requests == old(requests) + [LastChunk(Trim(old(formData.sourceId)))]
        && notice == Some(LookupNoticeOf(lookup))
        && formData == (if lookup.Found? then MergeLookup(old(formData), lookup.record) else old(formData))
    {
      var id := Trim(formData.sourceId);
      if id == "" {
        return None;
      }
      loadingChunk := true;
      requests := requests + [LastChunk(id)];
      if lookup.Found? {
        formData := MergeLookup(formData, lookup.record);
      }
      notice := Some(LookupNoticeOf(lookup));
      loadingChunk := false;
    }

    /**
     * `handleSubmit`: a form missing a required field sends nothing; otherwise
     * the form is posted, an accepted submission resets it, and any other
     * reply leaves it as it was. `isSubmitting` ends false on every path.
     */
    method HandleSubmit(reply: Reply<Snapshot>) returns (notice: Notice)
      requires Valid()
      modifies this`formData, this`requests, this`isSubmitting
      ensures Valid()
      ensures MissingRequired(old(formData)) ==>
        notice == MissingFields && requests == old(requests) && formData == old(formData)
      ensures !MissingRequired(old(formData)) ==>
        && requests == old(requests) + [IngestArticle(old(formData))]
        && notice == FormSubmitNotice(reply, old(formData).title, SubmitFallback)
        && formData == (if reply.Accepted? then ResetArticle(domains) else old(formData))
    {
      isSubmitting := true;
      if MissingRequired(formData) {
        isSubmitting := false;
        return MissingFields;
      }
      requests := requests + [IngestArticle(formData)];
      notice := FormSubmitNotice(reply, formData.title, SubmitFallback);
      if reply.Accepted? {
        formData := ResetArticle(domains);
      }
      isSubmitting := false;
    }
  }
}

=== FILE: book_record.dfy ===
/** The `BookData` record the book ingest form and the book edit form share. */
module BookRecord {
  import opened Js
  import opened JsNumber
  import opened FormKit

  datatype Book = Book(
    sourceId: string,
    title: string,
    author: string,
    tier: int,
    content: string,
    isbn: string,
    publication_date: string,
    chapter: string,
    tags: seq<string>,
    domain_ref: seq<DomainRef>)

  /** The tier a book gets when the tier input holds no non-zero integer. */
  const DefaultTier := 1

  const DefaultBook := Book("", "", "", DefaultTier, "", "", "", "", [], [])

  /** The fields `handleChange` edits: every field but `tags` and `domain_ref`. */
  datatype Field = SourceId | Title | Author | Tier | Content | Isbn | PublicationDate | Chapter

  function Get(b: Book, f: Field): FieldValue {
    match f
    case SourceId => Text(b.sourceId)
    case Title => Text(b.title)
    case Author => Text(b.author)
    case Tier => Number(b.tier)
    case Content => Text(b.content)
    case Isbn => Text(b.isbn)
    case PublicationDate => Text(b.publication_date)
    case Chapter => Text(b.chapter)
  }

  /**
   * `handleChange(field, value)`: the named field takes the input text, or for
   * the tier `parseInt(value) || 1`; every other field is kept.
   */
  function WithField(b: Book, f: Field, value: string): (r: Book)
    ensures f != Tier ==> Get(r, f) == Text(value)
    ensures f == Tier ==> r.tier == IntOr(value, DefaultTier) && r.tier != 0
    ensures forall g: Field :: g != f ==> Get(r, g) == Get(b, g)
    ensures r.tags == b.tags && r.domain_ref == b.domain_ref
  {
    match f
    case SourceId => b.(sourceId := value)
    case Title => b.(title := value)
    case Author => b.(author := value)
    case Tier => b.(tier := IntOr(value, DefaultTier))
    case Content => b.(content := value)
    case Isbn => b.(isbn := value)
    case PublicationDate => b.(publication_date := value)
    case Chapter => b.(chapter := value)
  }

  /** The book as a lookup returns it: every field present, no `source_name` and no `url`. */
  function ToSnapshot(b: Book): Snapshot {
    Snapshot(Some(b.sourceId), Some(b.title), None, Some(b.author), Some(b.tier), Some(b.content),
             None, Some(b.isbn), Some(b.publication_date), Some(b.chapter), Some(b.tags), Some(b.domain_ref))
  }
}

=== FILE: context_record.dfy ===
/** The `ContextData` record the context ingest form and the context edit form share. */
module ContextRecord {
  import opened Js
  import opened JsNumber
  import opened FormKit

  datatype Context = Context(
    sourceId: string,
    title: string,
    tier: int,
    content: string,
    tags: seq<string>,
    domain_ref: seq<DomainRef>)

  /** The tier a context gets when the tier input holds no non-zero integer. */
  const DefaultTier := 3

  const DefaultContext := Context("", "", DefaultTier, "", [], [])

  /** The fields `handleChange` edits from a text input. */
  datatype Field = SourceId | Title | Tier | Content

  function Get(c: Context, f: Field): FieldValue {
    match f
    case SourceId => Text(c.sourceId)
    case Title => Text(c.title)
    case Tier => Number(c.tier)
    case Content => Text(c.content)
  }

  /**
   * `handleChange(field, value)`: the named field takes the input text, or for
   * the tier `parseInt(value) || 3`; every other field is kept.
   */
  function WithField(c: Context, f: Field, value: string): (r: Context)
    ensures f != Tier ==> Get(r, f) == Text(value)
    ensures f == Tier ==> r.tier == IntOr(value, DefaultTier) && r.tier != 0
    ensures forall g: Field :: g != f ==> Get(r, g) == Get(c, g)
    ensures r.tags == c.tags && r.domain_ref == c.domain_ref
  {
    match f
    case SourceId => c.(sourceId := value)
    case Title => c.(title := value)
    case Tier => c.(tier := IntOr(value, DefaultTier))
    case Content => c.(content := value)
  }

  /** The context as a lookup returns it: no author, URL or other book and article fields. */
  function ToSnapshot(c: Context): Snapshot {
    Snapshot(Some(c.sourceId), Some(c.title), None, None, Some(c.tier), Some(c.content),
             None, None, None, None, Some(c.tags), Some(c.domain_ref))
  }
}

=== FILE: context_upload_form.dfy ===
/** The context ingest form: its state, the lookup by source id, and the submission. */
module ContextUploadForm {
  import opened Js
  import opened Text
  import opened FormKit
  import opened ContextRecord

  /** The requests the form issues. */
  datatype Request =
    | DomainList
    | LastChunk(id: string)
    | IngestContext(body: Context)

  /** The form's own text for a rejection without an error text. */
  const SubmitFallback := "Failed to submit context."

  /**
   * The lookup merge: the title (falling back to `source_name`) and the tier
   * are taken when truthy, tags and domains when they are arrays; source id
   * and content are kept.
   */
  function MergeLookup(prev: Context, data: Snapshot): (r: Context)
    ensures r.sourceId == prev.sourceId && r.content == prev.content
    ensures r.title == SnapshotTitle(data, prev.title)
    ensures r.tier == (if TruthyNum(data.tier) then data.tier.value else prev.tier)
    ensures r.tags == (if data.tags.Some? then data.tags.value else prev.tags)
    ensures r.domain_ref == (if data.domain_ref.Some? then data.domain_ref.value else prev.domain_ref)
    ensures prev.tier != 0 ==> r.tier != 0
  {
    prev.(
      title := SnapshotTitle(data, prev.title),
      tier := OrNum(data.tier, prev.tier),
      tags := ArrayOr(data.tags, prev.tags),
      domain_ref := ArrayOr(data.domain_ref, prev.domain_ref))
  }

  /** A record with nothing in it changes nothing. */
  lemma MergeEmpty(prev: Context)
    ensures MergeLookup(prev, EmptySnapshot) == prev
  {
  }

  /** Merging the same record twice is merging it once. */
  lemma MergeIdempotent(prev: Context, data: Snapshot)
    ensures MergeLookup(MergeLookup(prev, data), data) == MergeLookup(prev, data)
  {
  }

  /** Merging a context's own record restores it, except for the form's source id and content. */
  lemma MergeOwnRecord(prev: Context, c: Context)
    requires c.title != "" && c.tier != 0
    ensures MergeLookup(prev, ToSnapshot(c)) == c.(sourceId := prev.sourceId, content := prev.content)
  {
  }

  /** The context form demands a title, a source id and at least one domain; content is optional. */
  predicate MissingRequired(c: Context) {
    c.title == "" || c.sourceId == "" || |c.domain_ref| == 0
  }

  /** Content and tags never decide whether a context may be sent. */
  lemma ContentAndTagsOptional(c: Context, content: string, tags: seq<string>)
    ensures MissingRequired(c.(content := content, tags := tags)) == MissingRequired(c)
  {
  }

  /** The form after an accepted submission: the empty context with the first domain selected. */
  function ResetContext(domains: seq<DomainOption>): (c: Context)
    ensures c.domain_ref == FirstDomainRef(domains)
    ensures c.(domain_ref := []) == DefaultContext
  {
    DefaultContext.(domain_ref := FirstDomainRef(domains))
  }

  class ContextUploadView {
    var formData: Context
    var isSubmitting: bool
    var domains: seq<DomainOption>
    var loadingDomains: bool
    var loadingChunk: bool
    var tagInput: string
    var requests: seq<Request>

    /** Between handlers no request is in flight, and the tier is never 0. */
    predicate Valid()
      reads this
    {
      !isSubmitting && !loadingChunk && formData.tier != 0
    }

    constructor ()
      ensures Valid()
      ensures formData == DefaultContext && domains == [] && loadingDomains && tagInput == "" && requests == []
    {
      formData := DefaultContext;
      isSubmitting := false;
      domains := [];
      loadingDomains := true;
      loadingChunk := false;
      tagInput := "";
      requests := [];
    }

    /**
     * The domain list arrives (`Some`) or fails to load (`None`); an empty
     * selection then becomes the first domain.
     */
    method LoadDomains(reply: Option<seq<DomainOption>>)
      requires Valid()
      modifies this`domains, this`formData, this`requests, this`loadingDomains
      ensures Valid()
      ensures !loadingDomains && requests == old(requests) + [DomainList]
      ensures reply.Some? ==>
        domains == reply.value && formData == old(formData).(domain_ref := InitialDomainRef(old(formData.domain_ref), reply.value))
      ensures reply.None? ==> domains == old(domains) && formData == old(formData)
    {
      requests := requests + [DomainList];
      if reply.Some? {
        domains := reply.value;
        formData := formData.(domain_ref := InitialDomainRef(formData.domain_ref, reply.value));
      }
      loadingDomains := false;
    }

    method HandleChange(f: Field, value: string)
      requires Valid()
      modifies this`formData
      ensures Valid()
      ensures formData == WithField(old(formData), f, value)
    {
      formData := WithField(formData, f, value);
    }

    method SetTagInput(text: string)
      modifies this`tagInput
      ensures tagInput == text
    {
      tagInput := text;
    }

    /** `syncTags`: the tag list becomes what the tag text parses to. */
    method SyncTags()
      requires Valid()
      modifies this`formData
      ensures Valid()
      ensures formData == old(formData).(tags := ParseTags(tagInput))
    {
      formData := formData.(tags := ParseTags(tagInput));
    }

    /** The effect on `formData.tags`: the tag text is rewritten from the list. */
    method TagsEffect()
      modifies this`tagInput
      ensures tagInput == TagsText(formData.tags)
    {
      tagInput := TagsText(formData.tags);
    }

    /** `handleDomainChange`. */
    method HandleDomainChange(id: string, checked: bool)
      requires Valid()
      modifies this`formData
      ensures Valid()
      ensures formData == old(formData).(domain_ref := ToggleDomain(old(formData.domain_ref), id, checked))
    {
      formData := formData.(domain_ref := ToggleDomain(formData.domain_ref, id, checked));
    }

    /**
     * `handleSourceIdBlur`: a source id that is blank once trimmed looks
     * nothing up; otherwise the trimmed id is looked up and a found record is
     * merged into the form.
     */
    method BlurSourceId(lookup: Lookup) returns (notice: Option<LookupNotice>)
      requires Valid()
      modifies this`formData, this`requests, this`loadingChunk
      ensures Valid()
      ensures Trim(old(formData.sourceId)) == "" ==>
        notice.None? && requests == old(requests) && formData == old(formData)
      ensures Trim(old(formData.sourceId)) != "" ==>
        && requests == old(requests) + [LastChunk(Trim(old(formData.sourceId)))]
        && notice == Some(LookupNoticeOf(lookup))
        && formData == (if lookup.Found? then MergeLookup(old(formData), lookup.record) else old(formData))
    {
      var id := Trim(formData.sourceId);
      if id == "" {
        return None;
      }
      loadingChunk := true;
      requests := requests + [LastChunk(id)];
      if lookup.Found? {
        formData := MergeLookup(formData, lookup.record);
      }
      notice := Some(LookupNoticeOf(lookup));
      loadingChunk := false;
    }

    /**
     * `handleSubmit`: a form missing a required field sends nothing; otherwise
     * the form is posted, an accepted submission resets it, and any other
     * reply leaves it as it was. `isSubmitting` ends false on every path.
     */
    method HandleSubmit(reply: Reply<Snapshot>) returns (notice: Notice)
      requires Valid()
      modifies this`formData, this`requests, this`isSubmitting
      ensures Valid()
      ensures MissingRequired(old(formData)) ==>
        notice == MissingFields && requests == old(requests) && formData == old(formData)
      ensures !MissingRequired(old(formData)) ==>
        && requests == old(requests) + [IngestContext(old(formData))]
        && notice == FormSubmitNotice(reply, old(formData).title, SubmitFallback)
        && formData == (if reply.Accepted? then ResetContext(domains) else old(formData))
    {
      isSubmitting := true;
      if MissingRequired(formData) {
        isSubmitting := false;
        return MissingFields;
      }
      requests := requests + [IngestContext(formData)];
      notice := FormSubmitNotice(reply, formData.title, SubmitFallback);
      if reply.Accepted? {
        formData := ResetContext(domains);
      }
      isSubmitting := false;
    }
  }
}

=== FILE: edit_article_form.dfy ===
/** The article edit form: loading a stored article into the form and sending the edited fields. */
module EditArticleForm {
  import opened Js
  import opened Text
  import opened FormKit
  import opened ArticleRecord

  /** The fields the article edit form sends: every field but the source id. */
  datatype ArticlePatch = ArticlePatch(
    title: string,
    author: string,
    tier: int,
    content: string,
    url: string,
    publication_date: string,
    tags: seq<string>,
    domain_ref: seq<DomainRef>)

  /** The requests the form issues. */
  datatype Request =
    | DomainList
    | ChunkById(id: string)
    | UpdateArticle(id: string, payload: ArticlePatch)

  const ConnectFallback := "Failed to connect to server."

  /**
   * The mapping of a fetched record into the form: a missing or empty string
   * becomes `""`, the title falls back to `source_name`, a falsy tier becomes
   * 2, and a list that is not an array becomes empty.
   */
  function FromRecord(data: Snapshot): (a: Article)
    ensures a.sourceId == (if data.sourceId.Some? then data.sourceId.value else "")
    ensures a.title == SnapshotTitle(data, "")
    ensures a.author == (if data.author.Some? then data.author.value else "")
    ensures a.tier == (if TruthyNum(data.tier) then data.tier.value else DefaultTier) && a.tier != 0
    ensures a.content == (if data.content.Some? then data.content.value else "")
    ensures a.url == (if data.url.Some? then data.url.value else "")
    ensures a.publication_date == (if data.publication_date.Some? then data.publication_date.value else "")
    ensures a.tags == (if data.tags.Some? then data.tags.value else [])
    ensures a.domain_ref == (if data.domain_ref.Some? then data.domain_ref.value else [])
  {
    Article(
      OrStr(data.sourceId, ""),
      SnapshotTitle(data, ""),
      OrStr(data.author, ""),
      ArrayOr(data.domain_ref, []),
      OrNum(data.tier, DefaultTier),
      OrStr(data.content, ""),
      OrStr(data.url, ""),
      OrStr(data.publication_date, ""),
      ArrayOr(data.tags, []))
  }

  /** A stored article with a non-zero tier loads back unchanged. */
  lemma FromRecordRoundTrip(a: Article)
    requires a.tier != 0
    ensures FromRecord(ToSnapshot(a)) == a
  {
  }

  /** A record with nothing in it loads as the empty article. */
  lemma FromEmptyRecord()
    ensures FromRecord(EmptySnapshot) == DefaultArticle
  {
  }

  /** The PATCH body: the form without its source id. */
  function Payload(a: Article): (p: ArticlePatch)
    ensures p.title == a.title && p.author == a.author && p.tier == a.tier && p.content == a.content
    ensures p.url == a.url && p.publication_date == a.publication_date
    ensures p.tags == a.tags && p.domain_ref == a.domain_ref
  {
    ArticlePatch(a.title, a.author, a.tier, a.content, a.url, a.publication_date, a.tags, a.domain_ref)
  }

  /** Two forms send the same body exactly when they differ at most in their source id. */
  lemma PayloadIgnoresOnlySourceId(a: Article, b: Article)
    ensures Payload(a) == Payload(b) <==> a.(sourceId := "") == b.(sourceId := "")
  {
  }

  /** The edit form demands a title, an author and at least one domain. */
  predicate MissingRequired(a: Article) {
    a.title == "" || a.author == "" || |a.domain_ref| == 0
  }

  class EditArticleView {
    const articleId: string
    var formData: Option<Article>
    var isSubmitting: bool
    var loading: bool
    var domains: seq<DomainOption>
    var loadingDomains: bool
    var tagInput: string
    var requests: seq<Request>

    /** Between handlers no update is in flight, and a loaded article has a non-zero tier. */
    predicate Valid()
      reads this
    {
      !isSubmitting && (formData.Some? ==> formData.value.tier != 0)
    }

    constructor (articleId: string)
      ensures Valid()
      ensures this.articleId == articleId && formData.None? && loading && loadingDomains
      ensures domains == [] && tagInput == "" && requests == []
    {
      this.articleId := articleId;
      formData := None;
      isSubmitting := false;
      loading := true;
      domains := [];
      loadingDomains := true;
      tagInput := "";
      requests := [];
    }

    /** The domain list arrives (`Some`) or fails to load (`None`); the selection is left alone. */
    method LoadDomains(reply: Option<seq<DomainOption>>)
      modifies this`domains, this`requests, this`loadingDomains
      ensures !loadingDomains && requests == old(requests) + [DomainList]
      ensures domains == if reply.Some? then reply.value else old(domains)
    {
      requests := requests + [DomainList];
      if reply.Some? {
        domains := reply.value;
      }
      loadingDomains := false;
    }

    /**
     * `fetchArticle`: with an empty id nothing is fetched and `loading` keeps
     * its value; otherwise the article is fetched by id, a found record
     * replaces the form and its tag text without a notice, any other reply
     * raises its lookup notice, and loading ends.
     */
    method FetchArticle(lookup: Lookup) returns (notice: Option<LookupNotice>)
      requires Valid()
      modifies this`formData, this`loading, this`requests, this`tagInput
      ensures Valid()
      ensures articleId == "" ==>
        notice.None? && formData == old(formData) && loading == old(loading)
        && requests == old(requests) && tagInput == old(tagInput)
      ensures articleId != "" ==>
        && !loading
        && requests == old(requests) + [ChunkById(articleId)]
        && notice == (if lookup.Found? then None else Some(LookupNoticeOf(lookup)))
        && formData == (if lookup.Found? then Some(FromRecord(lookup.record)) else old(formData))
        && tagInput == (if lookup.Found? then TagsText(FromRecord(lookup.record).tags) else old(tagInput))
    {
      if articleId == "" {
        return None;
      }
      loading := true;
      requests := requests + [ChunkById(articleId)];
      if lookup.Found? {
        var a := FromRecord(lookup.record);
        formData := Some(a);
        tagInput := TagsText(a.tags);
      }
      notice := if lookup.Found? then None else Some(LookupNoticeOf(lookup));
      loading := false;
    }

    /** `handleChange`; a form that has not loaded stays empty. */
    method HandleChange(f: Field, value: string)
      requires Valid()
      modifies this`formData
      ensures Valid()
      ensures formData == if old(formData).None? then None else Some(WithField(old(formData).value, f, value))
    {
      if formData.Some? {
        formData := Some(WithField(formData.value, f, value));
      }
    }

    method SetTagInput(text: string)
      modifies this`tagInput
      ensures tagInput == text
    {
      tagInput := text;
    }

    /** `syncTags`; a form that has not loaded stays empty. */
    method SyncTags()
      requires Valid()
      modifies this`formData
      ensures Valid()
      ensures formData == if old(formData).None? then None else Some(old(formData).value.(tags := ParseTags(tagInput)))
    {
      if formData.Some? {
        formData := Some(formData.value.(tags := ParseTags(tagInput)));
      }
    }

    /** The effect on `formData`, run after every handler that replaces it: the tag text follows the tags. */
    method TagsEffect()
      modifies this`tagInput
      ensures formData.Some? ==> tagInput == TagsText(formData.value.tags)
      ensures formData.None? ==> tagInput == old(tagInput)
    {
      if formData.Some? {
        tagInput := TagsText(formData.value.tags);
      }
    }

    /** `handleDomainChange`; nothing happens before the article has loaded. */
    method HandleDomainChange(id: string, checked: bool)
      requires Valid()
      modifies this`formData
      ensures Valid()
      ensures formData == if old(formData).None? then None
                          else Some(old(formData).value.(domain_ref := ToggleDomain(old(formData).value.domain_ref, id, checked)))
    {
      if formData.Some? {
        formData := Some(formData.value.(domain_ref := ToggleDomain(formData.value.domain_ref, id, checked)));
      }
    }

    /**
     * `handleSubmit`: nothing happens before the article has loaded or without
     * an id; an article missing a required field is refused before
     * `isSubmitting` is set; otherwise every field but the source id is sent.
     */
    method HandleSubmit(reply: Reply<Snapshot>) returns (notice: Option<Notice>)
      requires Valid()
      modifies this`requests, this`isSubmitting
      ensures Valid()
      ensures formData.None? || articleId == "" ==> notice.None? && requests == old(requests)
      ensures formData.Some? && articleId != "" && MissingRequired(formData.value) ==>
        notice == Some(MissingFields) && requests == old(requests)
      ensures formData.Some? && articleId != "" && !MissingRequired(formData.value) ==>
        && requests == old(requests) + [UpdateArticle(articleId, Payload(formData.value))]
        && notice == Some(UpdateNotice(reply, ConnectFallback))
    {
      if formData.None? || articleId == "" {
        return None;
      }
      if MissingRequired(formData.value) {
        return Some(MissingFields);
      }
      isSubmitting := true;
      requests := requests + [UpdateArticle(articleId, Payload(formData.value))];
      notice := Some(UpdateNotice(reply, ConnectFallback));
      isSubmitting := false;
    }
  }
}

=== FILE: edit_book_form.dfy ===
/** The book edit form: loading a stored book into the form and sending the edited book. */
module EditBookForm {
  import opened Js
  import opened Text
  import opened FormKit
  import opened BookRecord

  /** The requests the form issues. */
  datatype Request =
    | DomainList
    | SourceById(id: string)
    | UpdateBook(id: string, payload: Book)

  const ConnectFallback := "Failed to connect to server."

  /**
   * The mapping of a fetched record into the form: a missing or empty string
   * becomes `""`, the title falls back to `source_name`, a falsy tier becomes
   * 1, and a list that is not an array becomes empty.
   */
  function FromRecord(data: Snapshot): (b: Book)
    ensures b.sourceId == (if data.sourceId.Some? then data.sourceId.value else "")
    ensures b.title == SnapshotTitle(data, "")
    ensures b.author == (if data.author.Some? then data.author.value else "")
    ensures b.tier == (if TruthyNum(data.tier) then data.tier.value else DefaultTier) && b.tier != 0
    ensures b.content == (if data.content.Some? then data.content.value else "")
    ensures b.isbn == (if data.isbn.Some? then data.isbn.value else "")
    ensures b.publication_date == (if data.publication_date.Some? then data.publication_date.value else "")
    ensures b.chapter == (if data.chapter.Some? then data.chapter.value else "")
    ensures b.tags == (if data.tags.Some? then data.tags.value else [])
    ensures b.domain_ref == (if data.domain_ref.Some? then data.domain_ref.value else [])
  {
    Book(
      OrStr(data.sourceId, ""),
      SnapshotTitle(data, ""),
      OrStr(data.author, ""),
      OrNum(data.tier, DefaultTier),
      OrStr(data.content, ""),
      OrStr(data.isbn, ""),
      OrStr(data.publication_date, ""),
      OrStr(data.chapter, ""),
      ArrayOr(data.tags, []),
      ArrayOr(data.domain_ref, []))
  }

  /** A stored book with a non-zero tier loads back unchanged. */
  lemma FromRecordRoundTrip(b: Book)
    requires b.tier != 0
    ensures FromRecord(ToSnapshot(b)) == b
  {
  }

  /** A record with nothing in it loads as the empty book. */
  lemma FromEmptyRecord()
    ensures FromRecord(EmptySnapshot) == DefaultBook
  {
  }

  /** The edit form demands a title, an author and at least one domain; the source id may be empty. */
  predicate MissingRequired(b: Book) {
    b.title == "" || b.author == "" || |b.domain_ref| == 0
  }

  class EditBookView {
    const bookId: string
    var formData: Option<Book>
    var isSubmitting: bool
    var loading: bool
    var domains: seq<DomainOption>
    var loadingDomains: bool
    var tagInput: string
    var requests: seq<Request>

    /** Between handlers no update is in flight, and a loaded book has a non-zero tier. */
    predicate Valid()
      reads this
    {
      !isSubmitting && (formData.Some? ==> formData.value.tier != 0)
    }

    constructor (bookId: string)
      ensures Valid()
      ensures this.bookId == bookId && formData.None? && loading && loadingDomains
      ensures domains == [] && tagInput == "" && requests == []
    {
      this.bookId := bookId;
      formData := None;
      isSubmitting := false;
      loading := true;
      domains := [];
      loadingDomains := true;
      tagInput := "";
      requests := [];
    }

    /** The domain list arrives (`Some`) or fails to load (`None`); the selection is left alone. */
    method LoadDomains(reply: Option<seq<DomainOption>>)
      modifies this`domains, this`requests, this`loadingDomains
      ensures !loadingDomains && requests == old(requests) + [DomainList]
      ensures domains == if reply.Some? then reply.value else old(domains)
    {
      requests := requests + [DomainList];
      if reply.Some? {
        domains := reply.value;
      }
      loadingDomains := false;
    }

    /**
     * `fetchBook`: with an empty id nothing is fetched and `loading` keeps its
     * value; otherwise the book is fetched by id, a found record replaces the
     * form and its tag text without a notice, any other reply raises its
     * lookup notice, and loading ends.
     */
    method FetchBook(lookup: Lookup) returns (notice: Option<LookupNotice>)
      requires Valid()
      modifies this`formData, this`loading, this`requests, this`tagInput
      ensures Valid()
      ensures bookId == "" ==>
        notice.None? && formData == old(formData) && loading == old(loading)
        && requests == old(requests) && tagInput == old(tagInput)
      ensures bookId != "" ==>
        && !loading
        && requests == old(requests) + [SourceById(bookId)]
        && notice == (if lookup.Found? then None else Some(LookupNoticeOf(lookup)))
        && formData == (if lookup.Found? then Some(FromRecord(lookup.record)) else old(formData))
        && tagInput == (if lookup.Found? then TagsText(FromRecord(lookup.record).tags) else old(tagInput))
    {
      if bookId == "" {
        return None;
      }
      loading := true;
      requests := requests + [SourceById(bookId)];
      if lookup.Found? {
        var b := FromRecord(lookup.record);
        formData := Some(b);
        tagInput := TagsText(b.tags);
      }
      notice := if lookup.Found? then None else Some(LookupNoticeOf(lookup));
      loading := false;
    }

    /** `handleChange`; a form that has not loaded stays empty. */
    method HandleChange(f: Field, value: string)
      requires Valid()
      modifies this`formData
      ensures Valid()
      ensures formData == if old(formData).None? then None else Some(WithField(old(formData).value, f, value))
    {
      if formData.Some? {
        formData := Some(WithField(formData.value, f, value));
      }
    }

    method SetTagInput(text: string)
      modifies this`tagInput
      ensures tagInput == text
    {
      tagInput := text;
    }

    /** `syncTags`; a form that has not loaded stays empty. */
    method SyncTags()
      requires Valid()
      modifies this`formData
      ensures Valid()
      ensures formData == if old(formData).None? then None else Some(old(formData).value.(tags := ParseTags(tagInput)))
    {
      if formData.Some? {
        formData := Some(formData.value.(tags := ParseTags(tagInput)));
      }
    }

    /** The effect on `formData`, run after every handler that replaces it: the tag text follows the tags. */
    method TagsEffect()
      modifies this`tagInput
      ensures formData.Some? ==> tagInput == TagsText(formData.value.tags)
      ensures formData.None? ==> tagInput == old(tagInput)
    {
      if formData.Some? {
        tagInput := TagsText(formData.value.tags);
      }
    }

    /** `handleDomainChange`; nothing happens before the book has loaded. */
    method HandleDomainChange(id: string, checked: bool)
      requires Valid()
      modifies this`formData
      ensures Valid()
      ensures formData == if old(formData).None? then None
                          else Some(old(formData).value.(domain_ref := ToggleDomain(old(formData).value.domain_ref, id, checked)))
    {
      if formData.Some? {
        formData := Some(formData.value.(domain_ref := ToggleDomain(formData.value.domain_ref, id, checked)));
      }
    }

    /**
     * `handleSubmit`: nothing happens before the book has loaded or without an
     * id; a book missing a required field is refused before `isSubmitting` is
     * set; otherwise all ten fields are sent to the book's id.
     */
    method HandleSubmit(reply: Reply<Snapshot>) returns (notice: Option<Notice>)
      requires Valid()
      modifies this`requests, this`isSubmitting
      ensures Valid()
      ensures formData.None? || bookId == "" ==> notice.None? && requests == old(requests)
      ensures formData.Some? && bookId != "" && MissingRequired(formData.value) ==>
        notice == Some(MissingFields) && requests == old(requests)
      ensures formData.Some? && bookId != "" && !MissingRequired(formData.value) ==>
        requests == old(requests) + [UpdateBook(bookId, formData.value)] && notice == Some(UpdateNotice(reply, ConnectFallback))
    {
      if formData.None? || bookId == "" {
        return None;
      }
      if MissingRequired(formData.value) {
        return Some(MissingFields);
      }
      isSubmitting := true;
      requests := requests + [UpdateBook(bookId, formData.value)];
      notice := Some(UpdateNotice(reply, ConnectFallback));
      isSubmitting := false;
    }
  }
}

=== FILE: edit_context_form.dfy ===
/** The context edit form: loading a stored context into the form and sending it back. */
module EditContextForm {
  import opened Js
  import opened Text
  import opened FormKit
  import opened ContextRecord

  /** The requests the form issues; the update body is the whole context. */
  datatype Request =
    | DomainList
    | SourceById(id: string)
    | UpdateContext(id: string, payload: Context)

  const ConnectFallback := "Failed to connect to server."

  /**
   * The mapping of a fetched record into the form: a missing or empty string
   * becomes `""`, the title falls back to `source_name`, a falsy tier becomes
   * 3, and a list that is not an array becomes empty.
   */
  function FromRecord(data: Snapshot): (c: Context)
    ensures c.sourceId == (if data.sourceId.Some? then data.sourceId.value else "")
    ensures c.title == SnapshotTitle(data, "")
    ensures c.tier == (if TruthyNum(data.tier) then data.tier.value else DefaultTier) && c.tier != 0
    ensures c.content == (if data.content.Some? then data.content.value else "")
    ensures c.tags == (if data.tags.Some? then data.tags.value else [])
    ensures c.domain_ref == (if data.domain_ref.Some? then data.domain_ref.value else [])
  {
    Context(
      OrStr(data.sourceId, ""),
      SnapshotTitle(data, ""),
      OrNum(data.tier, DefaultTier),
      OrStr(data.content, ""),
      ArrayOr(data.tags, []),
      ArrayOr(data.domain_ref, []))
  }

  /** A stored context with a non-zero tier loads back unchanged. */
  lemma FromRecordRoundTrip(c: Context)
    requires c.tier != 0
    ensures FromRecord(ToSnapshot(c)) == c
  {
  }

  /** A record with nothing in it loads as the empty context. */
  lemma FromEmptyRecord()
    ensures FromRecord(EmptySnapshot) == DefaultContext
  {
  }

  /** The edit form demands a title, a source id and at least one domain. */
  predicate MissingRequired(c: Context) {
    c.title == "" || c.sourceId == "" || |c.domain_ref| == 0
  }

  class EditContextView {
    const contextId: string
    var formData: Option<Context>
    var isSubmitting: bool
    var loading: bool
    var domains: seq<DomainOption>
    var loadingDomains: bool
    var tagInput: string
    var requests: seq<Request>

    /** Between handlers no update is in flight, and a loaded context has a non-zero tier. */
    predicate Valid()
      reads this
    {
      !isSubmitting && (formData.Some? ==> formData.value.tier != 0)
    }

    constructor (contextId: string)
      ensures Valid()
      ensures this.contextId == contextId && formData.None? && loading && loadingDomains
      ensures domains == [] && tagInput == "" && requests == []
    {
      this.contextId := contextId;
      formData := None;
      isSubmitting := false;
      loading := true;
      domains := [];
      loadingDomains := true;
      tagInput := "";
      requests := [];
    }

    /** The domain list arrives (`Some`) or fails to load (`None`); the selection is left alone. */
    method LoadDomains(reply: Option<seq<DomainOption>>)
      modifies this`domains, this`requests, this`loadingDomains
      ensures !loadingDomains && requests == old(requests) + [DomainList]
      ensures domains == if reply.Some? then reply.value else old(domains)
    {
      requests := requests + [DomainList];
      if reply.Some? {
        domains := reply.value;
      }
      loadingDomains := false;
    }

    /**
     * `fetchContext`: with an empty id nothing is fetched and `loading` keeps
     * its value; otherwise the context is fetched by id, a found record
     * replaces the form and its tag text without a notice, any other reply
     * raises its lookup notice, and loading ends.
     */
    method FetchContext(lookup: Lookup) returns (notice: Option<LookupNotice>)
      requires Valid()
      modifies this`formData, this`loading, this`requests, this`tagInput
      ensures Valid()
      ensures contextId == "" ==>
        notice.None? && formData == old(formData) && loading == old(loading)
        && requests == old(requests) && tagInput == old(tagInput)
      ensures contextId != "" ==>
        && !loading
        && requests == old(requests) + [SourceById(contextId)]
        && notice == (if lookup.Found? then None else Some(LookupNoticeOf(lookup)))
        && formData == (if lookup.Found? then Some(FromRecord(lookup.record)) else old(formData))
        && tagInput == (if lookup.Found? then TagsText(FromRecord(lookup.record).tags) else old(tagInput))
    {
      if contextId == "" {
        return None;
      }
      loading := true;
      requests := requests + [SourceById(contextId)];
      if lookup.Found? {
        var c := FromRecord(lookup.record);
        formData := Some(c);
        tagInput := TagsText(c.tags);
      }
      notice := if lookup.Found? then None else Some(LookupNoticeOf(lookup));
      loading := false;
    }

    /** `handleChange`; a form that has not loaded stays empty. */
    method HandleChange(f: Field, value: string)
      requires Valid()
      modifies this`formData
      ensures Valid()
      ensures formData == if old(formData).None? then None else Some(WithField(old(formData).value, f, value))
    {
      if formData.Some? {
        formData := Some(WithField(formData.value, f, value));
      }
    }

    method SetTagInput(text: string)
      modifies this`tagInput
      ensures tagInput == text
    {
      tagInput := text;
    }

    /** `syncTags`; a form that has not loaded stays empty. */
    method SyncTags()
      requires Valid()
      modifies this`formData
      ensures Valid()
      ensures formData == if old(formData).None? then None else Some(old(formData).value.(tags := ParseTags(tagInput)))
    {
      if formData.Some? {
        formData := Some(formData.value.(tags := ParseTags(tagInput)));
      }
    }

    /** The effect on `formData`, run after every handler that replaces it: the tag text follows the tags. */
    method TagsEffect()
      modifies this`tagInput
      ensures formData.Some? ==> tagInput == TagsText(formData.value.tags)
      ensures formData.None? ==> tagInput == old(tagInput)
    {
      if formData.Some? {
        tagInput := TagsText(formData.value.tags);
      }
    }

    /** `handleDomainChange`; nothing happens before the context has loaded. */
    method HandleDomainChange(id: string, checked: bool)
      requires Valid()
      modifies this`formData
      ensures Valid()
      ensures formData == if old(formData).None? then None
                          else Some(old(formData).value.(domain_ref := ToggleDomain(old(formData).value.domain_ref, id, checked)))
    {
      if formData.Some? {
        formData := Some(formData.value.(domain_ref := ToggleDomain(formData.value.domain_ref, id, checked)));
      }
    }

    /**
     * `handleSubmit`: nothing happens before the context has loaded or without
     * an id; a context missing a required field is refused before
     * `isSubmitting` is set; otherwise the whole context is sent.
     */
    method HandleSubmit(reply: Reply<Snapshot>) returns (notice: Option<Notice>)
      requires Valid()
      modifies this`requests, this`isSubmitting
      ensures Valid()
      ensures formData.None? || contextId == "" ==> notice.None? && requests == old(requests)
      ensures formData.Some? && contextId != "" && MissingRequired(formData.value) ==>
        notice == Some(MissingFields) && requests == old(requests)
      ensures formData.Some? && contextId != "" && !MissingRequired(formData.value) ==>
        && requests == old(requests) + [UpdateContext(contextId, formData.value)]
        && notice == Some(UpdateNotice(reply, ConnectFallback))
    {
      if formData.None? || contextId == "" {
        return None;
      }
      if MissingRequired(formData.value) {
        return Some(MissingFields);
      }
      isSubmitting := true;
      requests := requests + [UpdateContext(contextId, formData.value)];
      notice := Some(UpdateNotice(reply, ConnectFallback));
      isSubmitting := false;
    }
  }
}

=== FILE: edit_moral_domain_form.dfy ===
/** The moral-domain edit form: loading a stored domain by name and sending it back. */
module EditMoralDomainForm {
  import opened Js
  import opened Text
  import opened JsNumber
  import opened FormKit
  import opened MoralDomainRecord

  /** The requests the form issues, addressed by the trimmed domain name. */
  datatype Request =
    | MoralDomainByName(name: string)
    | UpdateMoralDomain(name: string, body: StoredDomain)

  /**
   * The outcome of loading the domain: a 2xx body (`None` when it is
   * falsy), an HTTP error with its status and text, or a thrown error.
   */
  datatype DomainReply =
    | DomainFound(data: Option<StoredDomain>)
    | DomainHttpError(status: int, text: string)
    | DomainThrown(message: string)

  datatype DomainNotice = NoDomainName | DomainShown | DomainLoadFailed(message: string)

  const LoadFallback := "Não foi possível carregar o domínio. Verifique o nome ou a conexão."
  const InvalidData := "Dados inválidos recebidos da API."
  const ConnectFallback := "Não foi possível conectar ao servidor. Verifique se a API está rodando."

  /** The message of the error an HTTP failure throws. */
  function HttpLoadMessage(status: int, text: string): string {
    "Falha ao carregar domínio: " + Decimal(status) + " " + text
  }

  /** The notice after loading; a failure always has a message to show. */
  function DomainNoticeOf(reply: DomainReply): (n: DomainNotice)
    ensures n == DomainShown <==> reply.DomainFound? && reply.data.Some?
    ensures n.DomainLoadFailed? ==> n.message != ""
    ensures reply.DomainHttpError? ==> n == DomainLoadFailed(HttpLoadMessage(reply.status, reply.text))
    ensures reply == DomainFound(None) ==> n == DomainLoadFailed(InvalidData)
    ensures reply.DomainThrown? && reply.message != "" ==> n == DomainLoadFailed(reply.message)
    ensures reply.DomainThrown? && reply.message == "" ==> n == DomainLoadFailed(LoadFallback)
    ensures !n.NoDomainName?
  {
    match reply
    case DomainFound(data) => if data.Some? then DomainShown else DomainLoadFailed(InvalidData)
    case DomainHttpError(status, text) => DomainLoadFailed(HttpLoadMessage(status, text))
    case DomainThrown(message) => DomainLoadFailed(if message != "" then message else LoadFallback)
  }

  /**
   * The notice for a reply to the update: an error text mentioning
   * "not found" names the form's domain, any other error text is shown, and
   * a body without one is an unexpected response.
   */
  function UpdateNoticeOf(reply: Reply<StoredDomain>, name: string): (n: Notice)
    ensures n == Submitted <==> reply.Accepted?
    ensures n.NotFound? ==> n.name == name && reply.Rejected?
    ensures n.UnexpectedResponse? || n.Failed? ==> reply.Rejected?
    ensures !n.AlreadyExists? && !n.MissingFields?
    ensures reply.Thrown? ==> n.ConnectionError? && n.detail != ""
    ensures reply.Thrown? && reply.message != "" ==> n == ConnectionError(reply.message)
    ensures reply.Rejected? && ErrorData(reply.contentType, reply.json, reply.text).Err? ==> n.ConnectionError?
    ensures reply.Rejected? && ErrorData(reply.contentType, reply.json, reply.text).Ok? ==>
      var error := ErrorData(reply.contentType, reply.json, reply.text).value.error;
      && (n.NotFound? <==> ErrorMentions(error, "not found"))
      && (TruthyStr(error) && !ErrorMentions(error, "not found") ==> n == Failed(error.value))
      && (!TruthyStr(error) ==> n == UnexpectedResponse)
    ensures n.ConnectionError? ==> n.detail != ""
  {
    match reply
    case Accepted => Submitted
    case Rejected(contentType, json, text) =>
      (match ErrorData(contentType, json, text)
       case Err(message) => CaughtNotice(message, ConnectFallback)
       case Ok(body) =>
         if ErrorMentions(body.error, "not found") then NotFound(name)
         else if TruthyStr(body.error) then Failed(body.error.value)
         else UnexpectedResponse)
    case Thrown(message) => CaughtNotice(message, ConnectFallback)
  }

  /** A plain-text rejection is "not found" exactly when its text says so. */
  lemma PlainTextNotFound(contentType: Option<string>, json: Result<ErrorBody<StoredDomain>, string>, text: string, name: string)
    requires !IsJsonContentType(contentType)
    ensures UpdateNoticeOf(Rejected(contentType, json, text), name).NotFound? <==> Contains(text, "not found")
  {
    if text == "" {
      ContainsNothingInEmpty("not found");
    }
  }

  class EditMoralDomainView {
    const domainName: string
    var formData: Option<StoredDomain>
    var isSubmitting: bool
    var loading: bool
    var requests: seq<Request>

    predicate Valid()
      reads this
    {
      !isSubmitting
    }

    constructor (domainName: string)
      ensures Valid()
      ensures this.domainName == domainName && formData.None? && loading && requests == []
    {
      this.domainName := domainName;
      formData := None;
      isSubmitting := false;
      loading := true;
      requests := [];
    }

    /**
     * The mount effect: without a domain name nothing is fetched; otherwise
     * the domain is fetched by its trimmed name and a 2xx body replaces the
     * form. Loading ends on every path.
     */
    method LoadDomain(reply: DomainReply) returns (notice: DomainNotice)
      modifies this`formData, this`loading, this`requests
      ensures !loading
      ensures domainName == "" ==> notice == NoDomainName && requests == old(requests) && formData == old(formData)
      ensures domainName != "" ==>
        && requests == old(requests) + [MoralDomainByName(Trim(domainName))]
        && notice == DomainNoticeOf(reply)
        && formData == (if notice == DomainShown then reply.data else old(formData))
    {
      if domainName == "" {
        notice := NoDomainName;
      } else {
        requests := requests + [MoralDomainByName(Trim(domainName))];
        if reply.DomainFound? && reply.data.Some? {
          formData := reply.data;
        }
        notice := DomainNoticeOf(reply);
      }
      loading := false;
    }

    /** `handleChange` on a text field; a form that has not loaded stays empty. */
    method HandleChange(f: TextField, value: string)
      modifies this`formData
      ensures old(formData).None? ==> formData.None?
      ensures old(formData).Some? ==> formData == Some(ToStored(WithText(FromStored(old(formData).value), f, value)))
    {
      if formData.Some? {
        formData := Some(ToStored(WithText(FromStored(formData.value), f, value)));
      }
    }

    /** `handleArrayChange`; a form that has not loaded stays empty. */
    method HandleArrayChange(f: ListField, text: string)
      modifies this`formData
      ensures old(formData).None? ==> formData.None?
      ensures old(formData).Some? ==> formData == Some(ToStored(WithSources(FromStored(old(formData).value), f, text)))
    {
      if formData.Some? {
        formData := Some(ToStored(WithSources(FromStored(formData.value), f, text)));
      }
    }

    /**
     * `handleSubmit`: nothing happens before the domain has loaded; a name
     * that is blank once trimmed is refused; otherwise the whole record is
     * sent to the trimmed name.
     */
    method HandleSubmit(reply: Reply<StoredDomain>) returns (notice: Option<Notice>)
      requires Valid()
      modifies this`requests, this`isSubmitting
      ensures Valid()
      ensures formData.None? ==> notice.None? && requests == old(requests)
      ensures formData.Some? && Trim(formData.value.domain) == "" ==>
        notice == Some(MissingFields) && requests == old(requests)
      ensures formData.Some? && Trim(formData.value.domain) != "" ==>
        && requests == old(requests) + [UpdateMoralDomain(Trim(formData.value.domain), formData.value)]
        && notice == Some(UpdateNoticeOf(reply, formData.value.domain))
    {
      if formData.None? {
        return None;
      }
      var name := Trim(formData.value.domain);
      if name == "" {
        return Some(MissingFields);
      }
      isSubmitting := true;
      requests := requests + [UpdateMoralDomain(name, formData.value)];
      notice := Some(UpdateNoticeOf(reply, formData.value.domain));
      isSubmitting := false;
    }
  }
}

=== FILE: form_kit.dfy ===
/**
 * What the ingest and edit forms share: the `domain_ref` checkbox list, the
 * comma-separated tag field, the record a lookup returns, the shape of a
 * server reply and the notice a handler shows for it.
 */
module FormKit {
  import opened Js
  import opened Text
  import opened Seqs
  import opened Lists

  /** One `{ id }` entry of a record's `domain_ref` list. */
  datatype DomainRef = DomainRef(id: string)

  /** A moral domain as the domain-list endpoint returns it (`_additional.id`, `domain`, `priority`). */
  datatype DomainOption = DomainOption(id: string, domain: string, priority: string)

  /** The value of one editable form field, for stating which fields a handler changes. */
  datatype FieldValue = Text(text: string) | Number(number: int)

  predicate NoDuplicates(refs: seq<DomainRef>) {
    forall i, j :: 0 <= i < j < |refs| ==> refs[i] != refs[j]
  }

  /** `refs.filter(ref => ref.id !== id)`. */
  function RemoveId(refs: seq<DomainRef>, id: string): (r: seq<DomainRef>)
    ensures DomainRef(id) !in r
    ensures forall x :: x in r <==> x in refs && x.id != id
    ensures IsSubseq(r, refs)
    ensures NoDuplicates(refs) ==> NoDuplicates(r)
  {
    if refs == [] then []
    else
      var rest := RemoveId(refs[1..], id);
      assert forall x :: x in refs <==> x == refs[0] || x in refs[1..];
      assert NoDuplicates(refs) ==> refs[0] !in refs[1..];
      if refs[0].id == id then rest else [refs[0]] + rest
  }

  /**
   * The domain checkbox handler: checking appends the id unless it is already
   * selected, unchecking removes every entry with that id; the other entries
   * keep their order, and a duplicate-free list stays duplicate-free.
   */
  function ToggleDomain(refs: seq<DomainRef>, id: string, checked: bool): (r: seq<DomainRef>)
    ensures checked ==> DomainRef(id) in r
    ensures !checked ==> DomainRef(id) !in r
    ensures forall x: DomainRef :: x.id != id ==> (x in r <==> x in refs)
    ensures checked ==> r == if DomainRef(id) in refs then refs else refs + [DomainRef(id)]
    ensures !checked ==> IsSubseq(r, refs)
    ensures NoDuplicates(refs) ==> NoDuplicates(r)
  {
    if checked then
      if DomainRef(id) in refs then refs else refs + [DomainRef(id)]
    else RemoveId(refs, id)
  }

  /** `domains.length > 0 ? [{ id: domains[0]._additional.id }] : []`, the selection after a reset. */
  function FirstDomainRef(domains: seq<DomainOption>): (r: seq<DomainRef>)
    ensures |r| <= 1
    ensures r == [] <==> domains == []
    ensures r != [] ==> r[0].id == domains[0].id
  {
    if |domains| > 0 then [DomainRef(domains[0].id)] else []
  }

  /** Once the domain list loads, an empty selection becomes the first domain. */
  function InitialDomainRef(current: seq<DomainRef>, domains: seq<DomainOption>): (r: seq<DomainRef>)
    ensures current != [] ==> r == current
    ensures current == [] ==> r == FirstDomainRef(domains)
  {
    if |domains| > 0 && |current| == 0 then [DomainRef(domains[0].id)] else current
  }

  /** The tag field's text split on commas: `split(",").map(trim).filter(Boolean)`. */
  function ParseTags(text: string): seq<string> {
    ParseList(text, ',')
  }

  /** No parsed tag is empty, has whitespace at either end or contains a comma. */
  lemma TagsAreItems(text: string)
    ensures forall t :: t in ParseTags(text) ==> IsItem(t, ',')
  {
    ParseListItems(text, ',');
  }

  /** The tag field's text derived from the tags: `tags.join(", ")`. */
  function TagsText(tags: seq<string>): string {
    Join(tags, ", ")
  }

  /** Tags that are non-empty, trimmed and comma-free survive `join(", ")` and re-parsing. */
  lemma TagsRoundTrip(tags: seq<string>)
    requires forall t :: t in tags ==> IsItem(t, ',')
    ensures ParseTags(TagsText(tags)) == tags
  {
    assert [','] + " " == ", ";
    ParseJoinRoundTrip(tags, ',', " ");
  }

  /** Parsing the tag text is idempotent once the text has been regenerated from the tags. */
  lemma TagsTextStable(text: string)
    ensures ParseTags(TagsText(ParseTags(text))) == ParseTags(text)
  {
    TagsAreItems(text);
    TagsRoundTrip(ParseTags(text));
  }

  /**
   * A record as a lookup endpoint returns it. Every field may be missing
   * (`None`); `tags` and `domain_ref` are `None` when the value is not an array.
   */
  datatype Snapshot = Snapshot(
    sourceId: Option<string>,
    title: Option<string>,
    source_name: Option<string>,
    author: Option<string>,
    tier: Option<int>,
    content: Option<string>,
    url: Option<string>,
    isbn: Option<string>,
    publication_date: Option<string>,
    chapter: Option<string>,
    tags: Option<seq<string>>,
    domain_ref: Option<seq<DomainRef>>)

  const EmptySnapshot := Snapshot(None, None, None, None, None, None, None, None, None, None, None, None)

  /** `data.title || data.source_name || fallback`. */
  function SnapshotTitle(s: Snapshot, fallback: string): (t: string)
    ensures TruthyStr(s.title) ==> t == s.title.value
    ensures !TruthyStr(s.title) && TruthyStr(s.source_name) ==> t == s.source_name.value
    ensures !TruthyStr(s.title) && !TruthyStr(s.source_name) ==> t == fallback
    ensures t == "" ==> fallback == ""
  {
    OrStr(s.title, OrStr(s.source_name, fallback))
  }

  /** The outcome of a GET for one record. */
  datatype Lookup =
    | Found(record: Snapshot)   // 2xx with a JSON body
    | Missing                   // 404
    | LookupFailed              // any other non-2xx status
    | LookupThrown(message: string) // the request or the JSON parse threw

  /** An error body: `{ error?, existing? }`. */
  datatype ErrorBody<E> = ErrorBody(error: Option<string>, existing: Option<E>)

  /**
   * The outcome of a POST or PATCH: accepted, rejected with a status (its
   * `content-type` header, the body as JSON or the exception its parse throws,
   * and the body as text), or the request threw with a message (`""` when the
   * thrown value has none).
   */
  datatype Reply<E> =
    | Accepted
    | Rejected(contentType: Option<string>, json: Result<ErrorBody<E>, string>, text: string)
    | Thrown(message: string)

  predicate IsJsonContentType(contentType: Option<string>) {
    contentType.Some? && Contains(contentType.value, "application/json")
  }

  /**
   * The `errorData` of a rejection: the parsed JSON body when the content type
   * mentions `application/json`, otherwise `{ error: text }`; `Err` carries the
   * message of a failed JSON parse, which the handler's `catch` receives.
   */
  function ErrorData<E>(contentType: Option<string>, json: Result<ErrorBody<E>, string>, text: string)
    : (r: Result<ErrorBody<E>, string>)
    ensures IsJsonContentType(contentType) ==> r == json
    ensures !IsJsonContentType(contentType) ==> r.Ok? && r.value.error == Some(text) && r.value.existing.None?
  {
    if IsJsonContentType(contentType) then json else Ok(ErrorBody(Some(text), None))
  }

  /** Which notification a handler raises. */
  datatype Notice =
    | MissingFields             // the required-field message; nothing was sent
    | Submitted                 // the request was accepted
    | AlreadyExists(name: string)
    | NotFound(name: string)
    | Failed(detail: string)    // the server's error text or the form's fallback text
    | UnexpectedResponse        // a rejection without an error text
    | ConnectionError(detail: string) // the exception's message or the form's fallback text

  /**
   * `error.message ? message : fallback` in a handler's `catch`: the
   * exception's own message when it has one, and never an empty toast when
   * the form's fallback text is not empty.
   */
  function CaughtNotice(message: string, fallback: string): (n: Notice)
    ensures n.ConnectionError?
    ensures message != "" ==> n.detail == message
    ensures fallback != "" ==> n.detail != ""
  {
    ConnectionError(if message != "" then message else fallback)
  }

  /** `error && error.includes(phrase)`. */
  predicate ErrorMentions(error: Option<string>, phrase: string) {
    TruthyStr(error) && Contains(error.value, phrase)
  }

  /** `existing?.title || fallback`: the title of the conflicting record, else the fallback. */
  function ExistingTitle(existing: Option<Snapshot>, fallback: string): (name: string)
    ensures existing.Some? && TruthyStr(existing.value.title) ==> name == existing.value.title.value
    ensures !(existing.Some? && TruthyStr(existing.value.title)) ==> name == fallback
  {
    if existing.Some? then OrStr(existing.value.title, fallback) else fallback
  }

  /**
   * How the ingest forms read an error body: a conflict exactly when the error
   * text mentions "already exists", naming the existing record or else the
   * form's title; any other error text is reported as it is; without an error
   * text the form reports its fallback text, or an unexpected response when it
   * has none (`fallback == None`).
   */
  function IngestRejection(body: ErrorBody<Snapshot>, formTitle: string, fallback: Option<string>): (n: Notice)
    ensures n.AlreadyExists? <==> ErrorMentions(body.error, "already exists")
    ensures n.AlreadyExists? ==> n.name == ExistingTitle(body.existing, formTitle)
    ensures TruthyStr(body.error) && !n.AlreadyExists? ==> n == Failed(body.error.value)
    ensures !TruthyStr(body.error) ==> n == if fallback.Some? then Failed(fallback.value) else UnexpectedResponse
  {
    if ErrorMentions(body.error, "already exists") then AlreadyExists(ExistingTitle(body.existing, formTitle))
    else if TruthyStr(body.error) then Failed(body.error.value)
    else if fallback.Some? then Failed(fallback.value)
    else UnexpectedResponse
  }

  /**
   * The notice for a reply to an ingest POST; an error body that fails to parse
   * as JSON throws, so its parse message reaches the `catch` like a network error.
   */
  function IngestNotice(reply: Reply<Snapshot>, formTitle: string, fallback: Option<string>, unreachable: string)
    : (n: Notice)
    ensures n == Submitted <==> reply.Accepted?
    ensures n.ConnectionError? ==> !reply.Accepted?
    ensures reply.Thrown? ==> n.ConnectionError? && (unreachable != "" ==> n.detail != "")
    ensures n.ConnectionError? && unreachable != "" ==> n.detail != ""
    ensures fallback.Some? ==> !n.UnexpectedResponse?
  {
    match reply
    case Accepted => Submitted
    case Rejected(contentType, json, text) =>
      (match ErrorData(contentType, json, text)
       case Err(message) => CaughtNotice(message, unreachable)
       case Ok(body) => IngestRejection(body, formTitle, fallback))
    case Thrown(message) => CaughtNotice(message, unreachable)
  }

  lemma ContainsNothingInEmpty(sub: string)
    requires sub != ""
    ensures !Contains("", sub)
  {
  }

  /**
   * A rejection whose body is not JSON is reported by its text: a conflict
   * naming the form's own title when the text mentions "already exists", the
   * text itself when it is non-empty, and the form's fallback otherwise.
   */
  lemma PlainTextRejection(contentType: Option<string>, json: Result<ErrorBody<Snapshot>, string>, text: string,
                           formTitle: string, fallback: Option<string>, unreachable: string)
    requires !IsJsonContentType(contentType)
    ensures IngestNotice(Rejected(contentType, json, text), formTitle, fallback, unreachable)
         == if Contains(text, "already exists") then AlreadyExists(formTitle)
            else if text != "" then Failed(text)
            else if fallback.Some? then Failed(fallback.value)
            else UnexpectedResponse
  {
    if text == "" {
      ContainsNothingInEmpty("already exists");
    }
  }

  /** The connection text of the article and context ingest forms. */
  const IngestConnectText := "Failed to connect to server. Please check if the API is running."

  /**
   * The notice of an ingest form that has its own failure text: done iff
   * accepted; a body without an error text reports that failure text rather
   * than an unexpected response; a connection error is never empty.
   */
  function FormSubmitNotice(reply: Reply<Snapshot>, title: string, failureText: string): (n: Notice)
    ensures n == Submitted <==> reply.Accepted?
    ensures !n.UnexpectedResponse?
    ensures reply.Thrown? ==> n.ConnectionError? && n.detail != ""
    ensures n.ConnectionError? ==> n.detail != ""
    ensures failureText != "" && n.Failed? ==> n.detail != ""
  {
    IngestNotice(reply, title, Some(failureText), IngestConnectText)
  }

  /**
   * The notice for a reply to an edit form's PATCH: the error text, or
   * "Unknown error" when the body has none.
   */
  function UpdateNotice(reply: Reply<Snapshot>, unreachable: string): (n: Notice)
    ensures n == Submitted <==> reply.Accepted?
    ensures n.Failed? ==> reply.Rejected? && n.detail != ""
    ensures !n.AlreadyExists? && !n.NotFound? && !n.UnexpectedResponse? && !n.MissingFields?
    ensures reply.Thrown? ==> n.ConnectionError? && (unreachable != "" ==> n.detail != "")
    ensures n.ConnectionError? && unreachable != "" ==> n.detail != ""
    ensures reply.Thrown? && reply.message != "" ==> n == ConnectionError(reply.message)
    ensures reply.Rejected? && ErrorData(reply.contentType, reply.json, reply.text).Err? ==> n.ConnectionError?
    ensures reply.Rejected? && ErrorData(reply.contentType, reply.json, reply.text).Ok? ==>
      var error := ErrorData(reply.contentType, reply.json, reply.text).value.error;
      n == Failed(if TruthyStr(error) then error.value else "Unknown error")
    ensures reply.Rejected? && !IsJsonContentType(reply.contentType) ==>
      n == Failed(if reply.text != "" then reply.text else "Unknown error")
  {
    match reply
    case Accepted => Submitted
    case Rejected(contentType, json, text) =>
      (match ErrorData(contentType, json, text)
       case Err(message) => CaughtNotice(message, unreachable)
       case Ok(body) => Failed(OrStr(body.error, "Unknown error")))
    case Thrown(message) => CaughtNotice(message, unreachable)
  }

  /** What a lookup by id reports. */
  datatype LookupNotice =
    | NoRecord   // 404
    | LoadFailed // another non-2xx status
    | Unreachable // the request or the JSON parse threw
    | Loaded

  function LookupNoticeOf(lookup: Lookup): (n: LookupNotice)
    ensures n == Loaded <==> lookup.Found?
    ensures n == NoRecord <==> lookup.Missing?
    ensures n == LoadFailed <==> lookup.LookupFailed?
    ensures n == Unreachable <==> lookup.LookupThrown?
  {
    match lookup
    case Found(_) => Loaded
    case Missing => NoRecord
    case LookupFailed => LoadFailed
    case LookupThrown(_) => Unreachable
  }
}

=== FILE: job_card.dfy ===
/** The job card: its status badge, the duration caption, the result block and the short id. */
module JobCard {
  import opened Js
  import opened Jobs

  datatype BadgeVariant = DefaultVariant | Secondary | Destructive

  /** `getStatusVariant`: failures are destructive, pending jobs secondary, the rest default. */
  function StatusVariant(status: JobStatus): (v: BadgeVariant)
    ensures v == Destructive <==> status == Failed
    ensures v == Secondary <==> status == Pending
    ensures v == DefaultVariant <==> status == Processing || status == Completed
  {
    match status
    case Pending => Secondary
    case Processing => DefaultVariant
    case Completed => DefaultVariant
    case Failed => Destructive
  }

  /** A duration caption: `"<n>ms"`, `"<n>s"` or `"<n>m"`. */
  datatype DurationLabel = Millis(ms: int) | Seconds(seconds: int) | Minutes(minutes: int)

  /** `Math.round(n / unit)` for a non-negative `n`: halves round up. */
  function RoundedQuotient(n: nat, unit: nat): nat
    requires unit > 0 && unit % 2 == 0
  {
    (n + unit / 2) / unit
  }

  /**
   * `getDuration`: no caption unless both timestamps are present; otherwise the
   * elapsed milliseconds as they are below one second (negative ones too), else
   * rounded to the nearest second below one minute, else to the nearest minute.
   */
  function Duration(startedAt: Option<int>, completedAt: Option<int>): (caption: Option<DurationLabel>)
    ensures caption.None? <==> startedAt.None? || completedAt.None?
    ensures caption.Some? ==>
      var d := completedAt.value - startedAt.value;
      && (caption.value.Millis? <==> d < 1000)
      && (caption.value.Minutes? <==> d >= 60000)
      && (caption.value.Millis? ==> caption.value.ms == d)
      && (caption.value.Seconds? ==>
            1 <= caption.value.seconds <= 60
            && 1000 * caption.value.seconds - 500 <= d < 1000 * caption.value.seconds + 500)
      && (caption.value.Minutes? ==>
            caption.value.minutes >= 1
            && 60000 * caption.value.minutes - 30000 <= d < 60000 * caption.value.minutes + 30000)
  {
    if startedAt.None? || completedAt.None? then None
    else
      var d := completedAt.value - startedAt.value;
      if d < 1000 then Some(Millis(d))
      else if d < 60000 then Some(Seconds(RoundedQuotient(d, 1000)))
      else Some(Minutes(RoundedQuotient(d, 60000)))
  }

  /** The caption reads "60s", not "1m", for the last half second before a minute. */
  lemma SixtySeconds(started: int, d: int)
    requires 59500 <= d < 60000
    ensures Duration(Some(started), Some(started + d)) == Some(Seconds(60))
  {
  }

  /** The result block shows only for a completed job that carries a result. */
  predicate ShowsResult(job: Job)
  {
    job.result.Some? && job.status == Completed
  }

  /** `jobId.slice(0, 8)`: at most the first eight characters of the id. */
  function ShortId(jobId: string): (s: string)
    ensures s <= jobId
    ensures |s| == if |jobId| < 8 then |jobId| else 8
  {
    if |jobId| <= 8 then jobId else jobId[..8]
  }
}

=== FILE: jobs.dfy ===
/** The job records the server reports for ingestion and update work. */
module Jobs {
  import opened Js

  datatype JobType = Book | Article | Context

  datatype JobStatus = Pending | Processing | Completed | Failed

  /** Completion metadata of a job. */
  datatype JobResult = JobResult(
    success: bool,
    chunks_processed: int,
    book: Option<string>,
    author: Option<string>,
    tier: Option<int>,
    resumed_from_seq: Option<int>,
    sourceIdPrefix: Option<string>)

  /**
   * A job. Timestamps are milliseconds since the epoch; a missing or empty
   * timestamp string is `None`.
   */
  datatype Job = Job(
    jobId: string,
    kind: JobType,
    status: JobStatus,
    title: Option<string>,
    author: Option<string>,
    createdAt: int,
    startedAt: Option<int>,
    completedAt: Option<int>,
    error: Option<string>,
    result: Option<JobResult>)
}

=== FILE: jobs_page.dfy ===
/** The jobs list page: the search and filters over the loaded jobs, and the per-status tally. */
module JobsPage {
  import opened Js
  import opened Text
  import opened Seqs
  import opened Jobs
  import JobCard

  datatype StatusFilter = AnyStatus | StatusIs(status: JobStatus)

  datatype TypeFilter = AnyType | TypeIs(kind: JobType)

  /** `field?.toLowerCase().includes(term)`: a missing field never matches. */
  predicate FieldMatches(field: Option<string>, term: string) {
    field.Some? && Contains(ToLower(field.value), term)
  }

  /** The search box matches the title, the author or the job id, ignoring case. */
  predicate MatchesSearch(job: Job, searchTerm: string) {
    var term := ToLower(searchTerm);
    FieldMatches(job.title, term) || FieldMatches(job.author, term) || Contains(ToLower(job.jobId), term)
  }

  predicate Keep(job: Job, searchTerm: string, statusFilter: StatusFilter, typeFilter: TypeFilter) {
    && MatchesSearch(job, searchTerm)
    && (statusFilter.AnyStatus? || job.status == statusFilter.status)
    && (typeFilter.AnyType? || job.kind == typeFilter.kind)
  }

  /**
   * `filteredJobs`: the jobs that match the search and both filters, in their
   * original order; a job is listed exactly when it is loaded and matches.
   */
  function FilterJobs(jobs: seq<Job>, searchTerm: string, statusFilter: StatusFilter, typeFilter: TypeFilter)
    : (shown: seq<Job>)
    ensures IsSubseq(shown, jobs)
    ensures |shown| <= |jobs|
    ensures forall j :: j in shown <==> j in jobs && Keep(j, searchTerm, statusFilter, typeFilter)
  {
    if jobs == [] then []
    else
      var rest := FilterJobs(jobs[1..], searchTerm, statusFilter, typeFilter);
      assert forall j :: j in jobs <==> j == jobs[0] || j in jobs[1..];
      if Keep(jobs[0], searchTerm, statusFilter, typeFilter) then
        assert ([jobs[0]] + rest)[1..] == rest;
        [jobs[0]] + rest
      else
        assert rest != [] ==> rest[0] != jobs[0];
        rest
  }

  lemma {:induction false} ContainsEmpty(s: string)
    ensures Contains(s, "")
  {
  }

  /** With an empty search and both filters on "all", every job is listed: `"".includes` is true of any id. */
  lemma {:induction false} FilterNothing(jobs: seq<Job>)
    ensures FilterJobs(jobs, "", AnyStatus, AnyType) == jobs
  {
    if jobs != [] {
      FilterNothing(jobs[1..]);
      assert ToLower("") == "";
      ContainsEmpty(ToLower(jobs[0].jobId));
      assert [jobs[0]] + jobs[1..] == jobs;
    }
  }

  /** Without a title and an author only the job id is searched. */
  lemma SearchWithoutTitleOrAuthor(job: Job, searchTerm: string)
    requires job.title.None? && job.author.None?
    ensures MatchesSearch(job, searchTerm) <==> Contains(ToLower(job.jobId), ToLower(searchTerm))
  {
  }

  lemma LowerIdempotent(s: string)
    ensures ToLower(ToLower(s)) == ToLower(s)
  {
  }

  /** The search ignores the case of the term: upper-case letters in it match as their lower-case forms. */
  lemma SearchIgnoresTermCase(job: Job, searchTerm: string)
    ensures MatchesSearch(job, searchTerm) <==> MatchesSearch(job, ToLower(searchTerm))
  {
    LowerIdempotent(searchTerm);
  }

  /**
   * Under a status filter other than "completed" no listed card shows a
   * result block, whatever its result field holds.
   */
  lemma NoResultUnlessCompleted(jobs: seq<Job>, searchTerm: string, status: JobStatus, typeFilter: TypeFilter, j: Job)
    requires status != Completed
    requires j in FilterJobs(jobs, searchTerm, StatusIs(status), typeFilter)
    ensures !JobCard.ShowsResult(j)
  {
  }

  /** Under the "completed" filter a listed card shows its result block exactly when it has a result. */
  lemma CompletedShowsResult(jobs: seq<Job>, searchTerm: string, typeFilter: TypeFilter, j: Job)
    requires j in FilterJobs(jobs, searchTerm, StatusIs(Completed), typeFilter)
    ensures JobCard.ShowsResult(j) <==> j.result.Some?
  {
  }

  /** The tally the page shows above the list. */
  datatype StatusCounts = StatusCounts(pending: nat, processing: nat, completed: nat, failed: nat, total: nat)

  /** The number of jobs with the given status. */
  function CountStatus(jobs: seq<Job>, status: JobStatus): nat {
    if jobs == [] then 0
    else CountStatus(jobs[..|jobs| - 1], status) + (if jobs[|jobs| - 1].status == status then 1 else 0)
  }

  /** The four buckets partition the jobs, since every job has exactly one of the four statuses. */
  lemma {:induction false} BucketsPartition(jobs: seq<Job>)
    ensures CountStatus(jobs, Pending) + CountStatus(jobs, Processing)
          + CountStatus(jobs, Completed) + CountStatus(jobs, Failed) == |jobs|
  {
    if jobs != [] {
      BucketsPartition(jobs[..|jobs| - 1]);
    }
  }

  /**
   * `getStatusCounts`: `total` is the number of jobs and one pass over them
   * increments the bucket of each job's status.
   */
  method GetStatusCounts(jobs: seq<Job>) returns (counts: StatusCounts)
    ensures counts.total == |jobs|
    ensures counts.pending == CountStatus(jobs, Pending)
    ensures counts.processing == CountStatus(jobs, Processing)
    ensures counts.completed == CountStatus(jobs, Completed)
    ensures counts.failed == CountStatus(jobs, Failed)
    ensures counts.pending + counts.processing + counts.completed + counts.failed == counts.total
  {
    counts := StatusCounts(0, 0, 0, 0, |jobs|);
    for i := 0 to |jobs|
      invariant counts.total == |jobs|
      invariant counts.pending == CountStatus(jobs[..i], Pending)
      invariant counts.processing == CountStatus(jobs[..i], Processing)
      invariant counts.completed == CountStatus(jobs[..i], Completed)
      invariant counts.failed == CountStatus(jobs[..i], Failed)
    {
      assert jobs[..i + 1][..i] == jobs[..i];
      match jobs[i].status
      case Pending => counts := counts.(pending := counts.pending + 1);
      case Processing => counts := counts.(processing := counts.processing + 1);
      case Completed => counts := counts.(completed := counts.completed + 1);
      case Failed => counts := counts.(failed := counts.failed + 1);
    }
    assert jobs[..|jobs|] == jobs;
    BucketsPartition(jobs);
  }

  /** What a poll of the jobs endpoint produced. */
  datatype JobsReply =
    | JobsLoaded(jobs: seq<Job>)
    | JobsRejected                     // a non-2xx status
    | JobsThrown(message: Option<string>) // an exception; `None` when it is not an `Error`

  /** The jobs page's state. */
  class JobsView {
    var jobs: seq<Job>
    var loading: bool
    var error: Option<string>
    var searchTerm: string
    var statusFilter: StatusFilter
    var typeFilter: TypeFilter

    constructor ()
      ensures jobs == [] && loading && error.None?
      ensures searchTerm == "" && statusFilter == AnyStatus && typeFilter == AnyType
    {
      jobs := [];
      loading := true;
      error := None;
      searchTerm := "";
      statusFilter := AnyStatus;
      typeFilter := AnyType;
    }

    /** The list the page renders. */
    function FilteredJobs(): (shown: seq<Job>)
      reads this
      ensures IsSubseq(shown, jobs)
    {
      FilterJobs(jobs, searchTerm, statusFilter, typeFilter)
    }

    /**
     * `fetchJobs`: a successful poll replaces the jobs and clears the error; a
     * failed one keeps the jobs and records the error; loading ends either way.
     */
    method FetchJobs(reply: JobsReply)
      modifies this
      ensures !loading
      ensures reply.JobsLoaded? ==> jobs == reply.jobs && error.None?
      ensures reply.JobsRejected? ==> jobs == old(jobs) && error == Some("Failed to fetch jobs")
      ensures reply.JobsThrown? ==> jobs == old(jobs) && error == Some(if reply.message.Some? then reply.message.value else "Unknown error")
      ensures searchTerm == old(searchTerm) && statusFilter == old(statusFilter) && typeFilter == old(typeFilter)
    {
      loading := true;
      match reply {
      case JobsLoaded(loaded) =>
        jobs := loaded;
        error := None;
      case JobsRejected =>
        error := Some("Failed to fetch jobs");
      case JobsThrown(message) =>
        error := Some(if message.Some? then message.value else "Unknown error");
      }
      loading := false;
    }

    method SetSearchTerm(term: string)
      modifies this`searchTerm
      ensures searchTerm == term
    {
      searchTerm := term;
    }

    method SetStatusFilter(filter: StatusFilter)
      modifies this`statusFilter
      ensures statusFilter == filter
    {
      statusFilter := filter;
    }

    method SetTypeFilter(filter: TypeFilter)
      modifies this`typeFilter
      ensures typeFilter == filter
    {
      typeFilter := filter;
    }

    /** The tally is taken over all loaded jobs, whatever the search and filters are. */
    method StatusCountsNow() returns (counts: StatusCounts)
      ensures counts.total == |jobs|
      ensures counts.pending == CountStatus(jobs, Pending)
      ensures counts.processing == CountStatus(jobs, Processing)
      ensures counts.completed == CountStatus(jobs, Completed)
      ensures counts.failed == CountStatus(jobs, Failed)
    {
      counts := GetStatusCounts(jobs);
    }
  }
}

=== FILE: js.dfy ===
/** JavaScript values the client code leans on: optional values and their truthiness. */
module Js {

  /** A value that may be `undefined` (or, for JSON, absent). */
  datatype Option<+T> = None | Some(value: T)

  datatype Result<+T, +E> = Ok(value: T) | Err(error: E)

  /** `!!s` for an optional string: `undefined` and `""` are falsy. */
  predicate TruthyStr(s: Option<string>) {
    s.Some? && s.value != ""
  }

  /** `s || fallback` for an optional string. */
  function OrStr(s: Option<string>, fallback: string): string {
    if TruthyStr(s) then s.value else fallback
  }

  /** `!!n` for an optional number: `undefined` and `0` are falsy. */
  predicate TruthyNum(n: Option<int>) {
    n.Some? && n.value != 0
  }

  /** `n || fallback` for an optional number. */
  function OrNum(n: Option<int>, fallback: int): int {
    if TruthyNum(n) then n.value else fallback
  }

  /** `Array.isArray(v) ? v : fallback`; `None` stands for any value that is not an array. */
  function ArrayOr<T>(v: Option<seq<T>>, fallback: seq<T>): seq<T> {
    if v.Some? then v.value else fallback
  }
}

=== FILE: js_number.dfy ===
/**
 * `parseInt(text)` without a radix, as the forms use it for tier fields, and the
 * decimal rendering of an integer that it inverts.
 */
module JsNumber {
  import opened Js
  import opened Text

  predicate IsDigit(c: char) {
    '0' <= c <= '9'
  }

  predicate IsHexDigit(c: char) {
    IsDigit(c) || 'a' <= c <= 'f' || 'A' <= c <= 'F'
  }

  function DigitValue(c: char): nat
    requires IsHexDigit(c)
  {
    if IsDigit(c) then c as int - '0' as int
    else if 'a' <= c <= 'f' then c as int - 'a' as int + 10
    else c as int - 'A' as int + 10
  }

  /** The longest prefix of `s` made of decimal digits. */
  function DigitRun(s: string): (r: string)
    ensures r <= s
    ensures forall i :: 0 <= i < |r| ==> IsDigit(r[i])
    ensures |r| < |s| ==> !IsDigit(s[|r|])
  {
    if s != [] && IsDigit(s[0]) then [s[0]] + DigitRun(s[1..]) else ""
  }

  /** The longest prefix of `s` made of hexadecimal digits. */
  function HexRun(s: string): (r: string)
    ensures r <= s
    ensures forall i :: 0 <= i < |r| ==> IsHexDigit(r[i])
    ensures |r| < |s| ==> !IsHexDigit(s[|r|])
  {
    if s != [] && IsHexDigit(s[0]) then [s[0]] + HexRun(s[1..]) else ""
  }

  /** The value of a digit string in the given base, most significant digit first. */
  function Value(ds: string, base: nat): nat
    requires forall i :: 0 <= i < |ds| ==> IsHexDigit(ds[i])
  {
    if ds == [] then 0 else Value(ds[..|ds| - 1], base) * base + DigitValue(ds[|ds| - 1])
  }

  function Signed(negative: bool, n: nat): int {
    if negative then -(n as int) else n
  }

  /**
   * `parseInt(text)`: leading whitespace, an optional sign, then either `0x`/`0X`
   * and hexadecimal digits or decimal digits; whatever follows the digits is
   * ignored. `None` is `NaN`, the result when no digit follows.
   */
  function ParseInt(text: string): Option<int> {
    var t := TrimStart(text);
    var negative := |t| > 0 && t[0] == '-';
    var u := if |t| > 0 && (t[0] == '-' || t[0] == '+') then t[1..] else t;
    if |u| >= 2 && u[0] == '0' && (u[1] == 'x' || u[1] == 'X') then
      var h := HexRun(u[2..]);
      if h == [] then None else Some(Signed(negative, Value(h, 16)))
    else
      var d := DigitRun(u);
      if d == [] then None else Some(Signed(negative, Value(d, 10)))
  }

  /** `parseInt` yields a number only when the text holds a digit. */
  lemma ParseIntNeedsDigit(text: string)
    requires ParseInt(text).Some?
    ensures exists c :: c in text && IsDigit(c)
  {
    var t := TrimStart(text);
    TrimStartSuffix(text);
    var u := if |t| > 0 && (t[0] == '-' || t[0] == '+') then t[1..] else t;
    assert u == text[|text| - |u|..];
    assert u != [];
    assert text[|text| - |u|] == u[0];
    if !(|u| >= 2 && u[0] == '0' && (u[1] == 'x' || u[1] == 'X')) {
      assert DigitRun(u) != [];
    }
    assert IsDigit(u[0]);
  }

  function DigitChar(n: nat): (c: char)
    requires n < 10
    ensures IsDigit(c) && DigitValue(c) == n
  {
    ('0' as int + n) as char
  }

  /** `String(n)` for a natural number. */
  function NatDecimal(n: nat): (s: string)
    ensures s != []
    ensures forall i :: 0 <= i < |s| ==> IsDigit(s[i])
  {
    if n < 10 then [DigitChar(n)] else NatDecimal(n / 10) + [DigitChar(n % 10)]
  }

  /** `String(n)` for an integer. */
  function Decimal(n: int): string {
    if n < 0 then "-" + NatDecimal(-n) else NatDecimal(n)
  }

  lemma {:induction false} NatDecimalValue(n: nat)
    ensures Value(NatDecimal(n), 10) == n
  {
    if n >= 10 {
      var s := NatDecimal(n);
      NatDecimalValue(n / 10);
      assert s[..|s| - 1] == NatDecimal(n / 10);
    }
  }

  lemma {:induction false} DigitRunAll(s: string)
    requires forall i :: 0 <= i < |s| ==> IsDigit(s[i])
    ensures DigitRun(s) == s
  {
    if s != [] {
      DigitRunAll(s[1..]);
      assert [s[0]] + s[1..] == s;
    }
  }

  /** Round trip: `parseInt(String(n)) === n` for every integer `n`. */
  lemma ParseDecimal(n: int)
    ensures ParseInt(Decimal(n)) == Some(n)
  {
    var m: nat := if n < 0 then -n else n;
    NatDecimalValue(m);
    ParseSignedDigits(n < 0, NatDecimal(m));
    assert Decimal(n) == (if n < 0 then "-" else "") + NatDecimal(m);
  }

  lemma ParseSignedDigits(negative: bool, u: string)
    requires u != []
    requires forall i :: 0 <= i < |u| ==> IsDigit(u[i])
    ensures ParseInt((if negative then "-" else "") + u) == Some(Signed(negative, Value(u, 10)))
  {
    var s := (if negative then "-" else "") + u;
    ParseDigits(u);
    assert TrimStart(s) == s by {
      assert s != [] && !IsSpace(s[0]);
    }
    assert (|s| > 0 && s[0] == '-') == negative;
    assert (if |s| > 0 && (s[0] == '-' || s[0] == '+') then s[1..] else s) == u by {
      if negative {
        assert s[1..] == u;
      }
    }
  }

  /** A digit string parses, after an optional sign, to its decimal value. */
  lemma ParseDigits(u: string)
    requires u != []
    requires forall i :: 0 <= i < |u| ==> IsDigit(u[i])
    ensures !(|u| >= 2 && u[0] == '0' && (u[1] == 'x' || u[1] == 'X'))
    ensures DigitRun(u) == u
  {
    DigitRunAll(u);
  }

  /** `parseInt(text) || fallback`: a field's number, or its default when the text holds none or 0. */
  function IntOr(text: string, fallback: int): (n: int)
    requires fallback != 0
    ensures n != 0
    ensures ParseInt(text).None? ==> n == fallback
    ensures ParseInt(text).Some? ==> n == (if ParseInt(text).value == 0 then fallback else ParseInt(text).value)
  {
    match ParseInt(text)
    case None => fallback
    case Some(v) => if v == 0 then fallback else v
  }

  /**
   * The parsed number is not clamped: any non-zero integer typed in decimal,
   * including those outside the 1..3 tier range and negative ones, is kept.
   */
  lemma IntOrKeepsNonZero(n: int, fallback: int)
    requires n != 0 && fallback != 0
    ensures IntOr(Decimal(n), fallback) == n
  {
    ParseDecimal(n);
  }

  /** Text without any digit, such as `""`, always yields the fallback. */
  lemma IntOrWithoutDigits(text: string, fallback: int)
    requires fallback != 0
    requires forall c :: c in text ==> !IsDigit(c)
    ensures IntOr(text, fallback) == fallback
  {
    if ParseInt(text).Some? {
      ParseIntNeedsDigit(text);
    }
  }
}

=== FILE: lists.dfy ===
/**
 * Lists typed as delimited text: `text.split(sep).map(x => x.trim()).filter(x => x)`,
 * used for comma-separated tags and for newline-separated source lists.
 */
module Lists {
  import opened Text
  import opened Seqs

  /** `pieces.map(x => x.trim())`. */
  function TrimAll(pieces: seq<string>): seq<string> {
    if pieces == [] then [] else [Trim(pieces[0])] + TrimAll(pieces[1..])
  }

  /** Trimming every piece keeps the pieces' number and positions. */
  lemma {:induction false} TrimAllPointwise(pieces: seq<string>)
    ensures |TrimAll(pieces)| == |pieces|
    ensures forall i :: 0 <= i < |pieces| ==> TrimAll(pieces)[i] == Trim(pieces[i])
  {
    if pieces != [] {
      TrimAllPointwise(pieces[1..]);
    }
  }

  /** Trims every piece and drops the pieces that become empty. */
  function Clean(pieces: seq<string>): seq<string> {
    if pieces == [] then []
    else
      var t := Trim(pieces[0]);
      var rest := Clean(pieces[1..]);
      if t == "" then rest else [t] + rest
  }

  lemma {:induction false} CleanItems(pieces: seq<string>)
    ensures forall t :: t in Clean(pieces) ==> t != "" && Trimmed(t)
    ensures IsSubseq(Clean(pieces), TrimAll(pieces))
  {
    if pieces != [] {
      CleanItems(pieces[1..]);
      var t := Trim(pieces[0]);
      var rest := Clean(pieces[1..]);
      assert TrimAll(pieces)[1..] == TrimAll(pieces[1..]);
      if t != "" {
        assert ([t] + rest)[1..] == rest;
      } else if rest != [] {
        assert rest[0] != TrimAll(pieces)[0];
      }
    }
  }

  /** The items of a delimited text: its pieces, trimmed, without the empty ones. */
  function ParseList(text: string, sep: char): seq<string> {
    Clean(Split(text, sep))
  }

  /**
   * No item of a delimited text is empty, none has whitespace at either end,
   * none contains the separator, and the items are trimmed pieces of the text
   * in their original order.
   */
  lemma ParseListItems(text: string, sep: char)
    ensures forall t :: t in ParseList(text, sep) ==> IsItem(t, sep)
    ensures IsSubseq(ParseList(text, sep), TrimAll(Split(text, sep)))
  {
    var pieces := Split(text, sep);
    SplitPiecesFree(text, sep);
    CleanItems(pieces);
    CleanKeepsOut(pieces, sep);
  }

  lemma {:induction false} CleanKeepsOut(pieces: seq<string>, c: char)
    requires forall p :: p in pieces ==> c !in p
    ensures forall t :: t in Clean(pieces) ==> c !in t
  {
    if pieces != [] {
      assert pieces[0] in pieces;
      assert forall p :: p in pieces[1..] ==> p in pieces;
      CleanKeepsOut(pieces[1..], c);
    }
  }

  lemma CleanSingle(z: string)
    ensures Clean([z]) == if Trim(z) == "" then [] else [Trim(z)]
  {
    assert [z][1..] == [];
  }

  lemma {:induction false} CleanAppend(p: seq<string>, q: seq<string>)
    ensures Clean(p + q) == Clean(p) + Clean(q)
  {
    if p == [] {
      assert p + q == q;
    } else {
      assert (p + q)[0] == p[0];
      assert (p + q)[1..] == p[1..] + q;
      CleanAppend(p[1..], q);
    }
  }

  /** Whitespace in front of the text only reaches the first piece, where trimming removes it. */
  lemma {:induction false} CleanSpacePrefix(pad: string, x: string, sep: char)
    requires AllSpace(pad) && sep !in pad
    ensures Clean(Split(pad + x, sep)) == Clean(Split(x, sep))
  {
    if pad == [] {
      assert pad + x == x;
    } else {
      var y := pad[1..] + x;
      assert pad + x == [pad[0]] + y;
      assert (pad + x)[1..] == y;
      CleanSpacePrefix(pad[1..], x, sep);
      var s := Split(y, sep);
      assert Split(pad + x, sep) == [[pad[0]] + s[0]] + s[1..];
      TrimLeadingSpace(pad[0], s[0]);
      CleanSingle([pad[0]] + s[0]);
      CleanSingle(s[0]);
      CleanAppend([[pad[0]] + s[0]], s[1..]);
      CleanAppend([s[0]], s[1..]);
      assert [s[0]] + s[1..] == s;
    }
  }

  /** What every parsed item satisfies. */
  predicate IsItem(t: string, sep: char) {
    t != "" && Trimmed(t) && sep !in t
  }

  lemma {:induction false} CleanSplitJoin(items: seq<string>, sep: char, pad: string)
    requires forall t :: t in items ==> IsItem(t, sep)
    requires AllSpace(pad) && sep !in pad
    ensures Clean(Split(Join(items, [sep] + pad), sep)) == items
  {
    var delim := [sep] + pad;
    if items == [] {
      assert Split("", sep) == [""];
      CleanSingle("");
    } else if |items| == 1 {
      assert IsItem(items[0], sep);
      SplitFree(items[0], sep);
      CleanSingle(items[0]);
    } else {
      var t, rest := items[0], items[1..];
      assert IsItem(t, sep);
      assert forall u :: u in rest ==> u in items;
      var j := Join(rest, delim);
      CleanSplitJoin(rest, sep, pad);
      assert Join(items, delim) == t + delim + j;
      CleanSplitCons(t, sep, pad, j);
      assert [t] + rest == items;
    }
  }

  lemma CleanSplitCons(t: string, sep: char, pad: string, j: string)
    requires IsItem(t, sep)
    requires AllSpace(pad) && sep !in pad
    ensures Clean(Split(t + ([sep] + pad) + j, sep)) == [t] + Clean(Split(j, sep))
  {
    assert t + ([sep] + pad) + j == t + [sep] + (pad + j);
    SplitAround(t, pad + j, sep);
    SplitFree(t, sep);
    CleanAppend([t], Split(pad + j, sep));
    CleanSingle(t);
    CleanSpacePrefix(pad, j, sep);
  }

  /**
   * Round trip: items that are non-empty, trimmed and free of the separator come
   * back unchanged from parsing their join with the separator followed by any
   * whitespace padding (`", "` for tags, `"\n"` for source lists).
   */
  lemma ParseJoinRoundTrip(items: seq<string>, sep: char, pad: string)
    requires forall t :: t in items ==> IsItem(t, sep)
    requires AllSpace(pad) && sep !in pad
    ensures ParseList(Join(items, [sep] + pad), sep) == items
  {
    CleanSplitJoin(items, sep, pad);
  }
}

=== FILE: moral_domain_record.dfy ===
/**
 * The moral-domain record in its two shapes: the submission form names the
 * domain `domain_name`, while the stored record (and the edit form) name it
 * `domain`.
 */
module MoralDomainRecord {
  import opened Text
  import opened Lists

  datatype MoralDomain = MoralDomain(
    domain_name: string,
    priority: string,
    anchor_behavior: string,
    override_policy: string,
    binding: string,
    bound_to: string,
    moral_inheritance_policy: string,
    tier_1_sources: seq<string>,
    tier_2_sources: seq<string>,
    tier_3_sources: seq<string>,
    clinical_reference_rationale: string)

  datatype StoredDomain = StoredDomain(
    domain: string,
    priority: string,
    anchor_behavior: string,
    override_policy: string,
    binding: string,
    bound_to: string,
    moral_inheritance_policy: string,
    tier_1_sources: seq<string>,
    tier_2_sources: seq<string>,
    tier_3_sources: seq<string>,
    clinical_reference_rationale: string)

  /** The text fields `handleChange` edits; `Name` is `domain_name` or `domain`. */
  datatype TextField =
    | Name | Priority | AnchorBehavior | OverridePolicy | Binding | BoundTo
    | InheritancePolicy | Rationale

  /** The source lists `handleArrayChange` edits, one source per line. */
  datatype ListField = Tier1Sources | Tier2Sources | Tier3Sources

  function GetText(m: MoralDomain, f: TextField): string {
    match f
    case Name => m.domain_name
    case Priority => m.priority
    case AnchorBehavior => m.anchor_behavior
    case OverridePolicy => m.override_policy
    case Binding => m.binding
    case BoundTo => m.bound_to
    case InheritancePolicy => m.moral_inheritance_policy
    case Rationale => m.clinical_reference_rationale
  }

  function GetList(m: MoralDomain, f: ListField): seq<string> {
    match f
    case Tier1Sources => m.tier_1_sources
    case Tier2Sources => m.tier_2_sources
    case Tier3Sources => m.tier_3_sources
  }

  /** The stored record under the form's key names. */
  function FromStored(s: StoredDomain): (m: MoralDomain)
    ensures m.domain_name == s.domain
  {
    MoralDomain(s.domain, s.priority, s.anchor_behavior, s.override_policy, s.binding, s.bound_to,
                s.moral_inheritance_policy, s.tier_1_sources, s.tier_2_sources, s.tier_3_sources,
                s.clinical_reference_rationale)
  }

  /** The form under the stored record's key names. */
  function ToStored(m: MoralDomain): (s: StoredDomain)
    ensures s.domain == m.domain_name
  {
    StoredDomain(m.domain_name, m.priority, m.anchor_behavior, m.override_policy, m.binding, m.bound_to,
                 m.moral_inheritance_policy, m.tier_1_sources, m.tier_2_sources, m.tier_3_sources,
                 m.clinical_reference_rationale)
  }

  /** Renaming the key loses nothing, in either direction. */
  lemma StoredRoundTrip(s: StoredDomain, m: MoralDomain)
    ensures ToStored(FromStored(s)) == s
    ensures FromStored(ToStored(m)) == m
  {
  }

  /** `handleChange(field, value)` on a text field: that field becomes the text, nothing else changes. */
  function WithText(m: MoralDomain, f: TextField, value: string): (r: MoralDomain)
    ensures GetText(r, f) == value
    ensures forall g: TextField :: g != f ==> GetText(r, g) == GetText(m, g)
    ensures forall l: ListField :: GetList(r, l) == GetList(m, l)
  {
    match f
    case Name => m.(domain_name := value)
    case Priority => m.(priority := value)
    case AnchorBehavior => m.(anchor_behavior := value)
    case OverridePolicy => m.(override_policy := value)
    case Binding => m.(binding := value)
    case BoundTo => m.(bound_to := value)
    case InheritancePolicy => m.(moral_inheritance_policy := value)
    case Rationale => m.(clinical_reference_rationale := value)
  }

  /** A textarea's lines, each trimmed, blank lines dropped. */
  function ParseSources(text: string): seq<string> {
    ParseList(text, '\n')
  }

  /** The textarea shows a source list one entry per line. */
  function SourcesText(items: seq<string>): string {
    Join(items, "\n")
  }

  /** Every parsed source is non-blank, trimmed, and a single line. */
  lemma SourcesAreItems(text: string)
    ensures forall t :: t in ParseSources(text) ==> IsItem(t, '\n')
  {
    ParseListItems(text, '\n');
  }

  /** A list of non-blank, trimmed, single-line sources survives being shown and read back. */
  lemma SourcesRoundTrip(items: seq<string>)
    requires forall t :: t in items ==> IsItem(t, '\n')
    ensures ParseSources(SourcesText(items)) == items
  {
    assert ['\n'] + "" == "\n";
    ParseJoinRoundTrip(items, '\n', "");
  }

  /** Once a textarea has been read, showing and reading it again changes nothing. */
  lemma SourcesTextStable(text: string)
    ensures ParseSources(SourcesText(ParseSources(text))) == ParseSources(text)
  {
    SourcesAreItems(text);
    SourcesRoundTrip(ParseSources(text));
  }

  /** `handleArrayChange(field, text)`: that list becomes the parsed lines, nothing else changes. */
  function WithSources(m: MoralDomain, f: ListField, text: string): (r: MoralDomain)
    ensures forall g: TextField :: GetText(r, g) == GetText(m, g)
    ensures forall l: ListField :: l != f ==> GetList(r, l) == GetList(m, l)
    ensures GetList(r, f) == ParseSources(text)
  {
    match f
    case Tier1Sources => m.(tier_1_sources := ParseSources(text))
    case Tier2Sources => m.(tier_2_sources := ParseSources(text))
    case Tier3Sources => m.(tier_3_sources := ParseSources(text))
  }
}

=== FILE: search_page.dfy ===
/** The search page: a question asked of one moral domain at one tier. */
module SearchPage {
  import opened Js
  import opened Text
  import opened JsNumber

  /** An entry of the domain list. */
  datatype DomainEntry = DomainEntry(domain: string, priority: string)

  /** The body of the search request. */
  datatype SearchBody = SearchBody(
    question: string,
    domain: string,
    tier: int,
    instructions: string,
    moral_foundation: string)

  /** The answer object; only its `answer` field is looked at. */
  datatype SearchResult = SearchResult(answer: Option<string>)

  /** The outcome of the search request. */
  datatype SearchReply =
    | Answered(data: SearchResult)
    | HttpError(status: int, text: string)
    | SearchThrown(message: string)

  datatype SearchNotice =
    | Incomplete
    | Answer(emptyWarning: bool)
    | NetworkError
    | SearchFailed(detail: string)

  const DefaultTier := 3

  /** The search may run only with a question that is not blank and a selected domain. */
  predicate CanSearch(question: string, domain: string) {
    Trim(question) != "" && domain != ""
  }

  /** The request body: the trimmed question, everything else as entered. */
  function BuildBody(question: string, domain: string, tier: int, instructions: string, moralFoundation: string)
    : (b: SearchBody)
    requires CanSearch(question, domain)
    ensures b.question == Trim(question) && Trimmed(b.question) && b.question != ""
    ensures b.domain == domain && b.tier == tier
    ensures b.instructions == instructions && b.moral_foundation == moralFoundation
  {
    SearchBody(Trim(question), domain, tier, instructions, moralFoundation)
  }

  /** The message of the error an HTTP failure throws. */
  function HttpMessage(status: int, text: string): string {
    "HTTP " + Decimal(status) + ": " + text
  }

  /** An error message mentioning "Failed to fetch" is a network error; any other is shown as it is. */
  function FailureNotice(message: string): (n: SearchNotice)
    ensures n == NetworkError <==> Contains(message, "Failed to fetch")
    ensures n.SearchFailed? ==> n.detail == (if message != "" then message else "Unknown error")
    ensures n.NetworkError? || n.SearchFailed?
  {
    if Contains(message, "Failed to fetch") then NetworkError
    else SearchFailed(if message != "" then message else "Unknown error")
  }

  /** The notice after a search; an empty or missing answer is shown with a warning. */
  function SearchNoticeOf(reply: SearchReply): (n: SearchNotice)
    ensures n.Answer? <==> reply.Answered?
    ensures n.Answer? ==> (n.emptyWarning <==> !TruthyStr(reply.data.answer))
    ensures !n.Incomplete?
  {
    match reply
    case Answered(data) => Answer(!TruthyStr(data.answer))
    case HttpError(status, text) => FailureNotice(HttpMessage(status, text))
    case SearchThrown(message) => FailureNotice(message)
  }

  /**
   * An HTTP error is reported with its status and text, except that a
   * response text mentioning "Failed to fetch" is reported as a network
   * error: the prefix the page adds can never supply the phrase.
   */
  lemma HttpErrorNotice(status: int, text: string)
    ensures SearchNoticeOf(HttpError(status, text)) ==
      if Contains(text, "Failed to fetch") then NetworkError else SearchFailed(HttpMessage(status, text))
  {
    var prefix := "HTTP " + Decimal(status) + ": ";
    var digits := NatDecimal(if status < 0 then -status else status);
    assert Decimal(status) == (if status < 0 then "-" else "") + digits;
    assert 'F' !in digits by {
      forall i | 0 <= i < |digits| ensures digits[i] != 'F' {
        assert IsDigit(digits[i]);
      }
    }
    assert 'F' !in prefix;
    assert HttpMessage(status, text) == prefix + text;
    ContainsAfterPrefix(prefix, text, "Failed to fetch");
  }

  class SearchView {
    var question: string
    var domain: string
    var tier: int
    var instructions: string
    var moralFoundation: string
    var domains: seq<DomainEntry>
    var loadingDomains: bool
    var loadingSearch: bool
    var result: Option<SearchResult>
    var requests: seq<SearchBody>

    /** Between handlers no search is in flight, and the tier is never 0. */
    predicate Valid()
      reads this
    {
      !loadingSearch && tier != 0
    }

    /** The page opens on the given question, instructions and moral foundation, tier 3, no domain. */
    constructor (question0: string, instructions0: string, moralFoundation0: string)
      ensures Valid()
      ensures question == question0 && instructions == instructions0 && moralFoundation == moralFoundation0
      ensures domain == "" && tier == DefaultTier && domains == [] && loadingDomains
      ensures result.None? && requests == []
    {
      question := question0;
      domain := "";
      tier := DefaultTier;
      instructions := instructions0;
      moralFoundation := moralFoundation0;
      domains := [];
      loadingDomains := true;
      loadingSearch := false;
      result := None;
      requests := [];
    }

    /** The domain list arrives (`Some`) or fails to load (`None`); a non-empty list selects its first domain. */
    method LoadDomains(reply: Option<seq<DomainEntry>>)
      modifies this`domains, this`domain, this`loadingDomains
      ensures !loadingDomains
      ensures reply.None? ==> domains == old(domains) && domain == old(domain)
      ensures reply.Some? ==> domains == reply.value
      ensures reply.Some? && |reply.value| > 0 ==> domain == reply.value[0].domain
      ensures reply.Some? && |reply.value| == 0 ==> domain == old(domain)
    {
      if reply.Some? {
        domains := reply.value;
        if |reply.value| > 0 {
          domain := reply.value[0].domain;
        }
      }
      loadingDomains := false;
    }

    method SetQuestion(text: string)
      modifies this`question
      ensures question == text
    {
      question := text;
    }

    method SetDomain(name: string)
      modifies this`domain
      ensures domain == name
    {
      domain := name;
    }

    /** The tier input: `parseInt(value) || 3`. */
    method SetTier(text: string)
      requires Valid()
      modifies this`tier
      ensures Valid()
      ensures tier == IntOr(text, DefaultTier)
    {
      tier := IntOr(text, DefaultTier);
    }

    method SetInstructions(text: string)
      modifies this`instructions
      ensures instructions == text
    {
      instructions := text;
    }

    method SetMoralFoundation(text: string)
      modifies this`moralFoundation
      ensures moralFoundation == text
    {
      moralFoundation := text;
    }

    /**
     * `handleSearch`: without a question or a domain nothing is sent and the
     * last result stays; otherwise the result is cleared, the body is sent,
     * and only an answer is kept as the new result.
     */
    method HandleSearch(reply: SearchReply) returns (notice: SearchNotice)
      requires Valid()
      modifies this`loadingSearch, this`result, this`requests
      ensures Valid()
      ensures !CanSearch(question, domain) ==>
        notice == Incomplete && result == old(result) && requests == old(requests)
      ensures CanSearch(question, domain) ==>
        && requests == old(requests) + [BuildBody(question, domain, tier, instructions, moralFoundation)]
        && notice == SearchNoticeOf(reply)
        && result == (if reply.Answered? then Some(reply.data) else None)
    {
      if !CanSearch(question, domain) {
        return Incomplete;
      }
      loadingSearch := true;
      result := None;
      requests := requests + [BuildBody(question, domain, tier, instructions, moralFoundation)];
      if reply.Answered? {
        result := Some(reply.data);
      }
      notice := SearchNoticeOf(reply);
      loadingSearch := false;
    }
  }
}

=== FILE: seqs.dfy ===
/** Order-preserving selection from a sequence. */
module Seqs {

  /** `xs` can be obtained from `ys` by deleting elements, keeping the order of the rest. */
  predicate IsSubseq<T(==)>(xs: seq<T>, ys: seq<T>)
    decreases |ys|
  {
    if xs == [] then true
    else if ys == [] then false
    else if xs[0] == ys[0] then IsSubseq(xs[1..], ys[1..])
    else IsSubseq(xs, ys[1..])
  }

  lemma {:induction false} SubseqMembers<T>(xs: seq<T>, ys: seq<T>)
    requires IsSubseq(xs, ys)
    ensures |xs| <= |ys|
    ensures forall x :: x in xs ==> x in ys
    decreases |ys|
  {
    if xs == [] {
    } else if xs[0] == ys[0] {
      SubseqMembers(xs[1..], ys[1..]);
      assert forall x :: x in xs ==> x == xs[0] || x in xs[1..];
    } else {
      SubseqMembers(xs, ys[1..]);
    }
  }

  lemma {:induction false} SubseqRefl<T>(xs: seq<T>)
    ensures IsSubseq(xs, xs)
  {
    if xs != [] {
      SubseqRefl(xs[1..]);
    }
  }
}

=== FILE: submit_form.dfy ===
/** The moral-domain submission form: editing the record and posting it, with the conflict prefill. */
module SubmitForm {
  import opened Js
  import opened Text
  import opened FormKit
  import opened MoralDomainRecord

  /** The one request the form issues. */
  datatype Request = IngestMoralDomain(body: MoralDomain)

  const ConnectFallback := "Could not connect to server. Please check if the API is running."

  /** The header fields of the record the form opens with. */
  const DefaultName := "Moral Foundations"
  const DefaultPriority := "foundational"
  const DefaultAnchor := "global"
  const DefaultOverride := "non-removable"
  const DefaultBinding := "all_domains"

  /** `existing?.domain || formData.domain_name`. */
  function ExistingName(existing: Option<StoredDomain>, fallback: string): (name: string)
    ensures existing.Some? && existing.value.domain != "" ==> name == existing.value.domain
    ensures existing.None? || existing.value.domain == "" ==> name == fallback
  {
    if existing.Some? && existing.value.domain != "" then existing.value.domain else fallback
  }

  /**
   * A rejection body: an error text mentioning "already exists" is a
   * conflict, any other error text is shown, and a body without an error
   * text is an unexpected response.
   */
  function DomainRejection(body: ErrorBody<StoredDomain>, formName: string): (n: Notice)
    ensures n.AlreadyExists? <==> ErrorMentions(body.error, "already exists")
    ensures n.AlreadyExists? ==> n.name == ExistingName(body.existing, formName)
    ensures TruthyStr(body.error) && !n.AlreadyExists? ==> n == Failed(body.error.value)
    ensures n == UnexpectedResponse <==> !TruthyStr(body.error)
  {
    if TruthyStr(body.error) then
      if Contains(body.error.value, "already exists") then AlreadyExists(ExistingName(body.existing, formName))
      else Failed(body.error.value)
    else UnexpectedResponse
  }

  /** The notice for a reply to the ingest request. */
  function SubmitNotice(reply: Reply<StoredDomain>, formName: string): (n: Notice)
    ensures n == Submitted <==> reply.Accepted?
    ensures n.UnexpectedResponse? || n.AlreadyExists? || n.Failed? ==> reply.Rejected?
    ensures !n.MissingFields? && !n.NotFound?
    ensures reply.Thrown? ==> n.ConnectionError? && n.detail != ""
    ensures n.ConnectionError? ==> n.detail != ""
  {
    match reply
    case Accepted => Submitted
    case Rejected(contentType, json, text) =>
      (match ErrorData(contentType, json, text)
       case Err(message) => CaughtNotice(message, ConnectFallback)
       case Ok(body) => DomainRejection(body, formName))
    case Thrown(message) => CaughtNotice(message, ConnectFallback)
  }

  /** The stored record a conflict reply carries, if any. */
  function ConflictRecord(reply: Reply<StoredDomain>): (r: Option<StoredDomain>)
    ensures r.Some? ==> reply.Rejected?
  {
    match reply
    case Rejected(contentType, json, text) =>
      (match ErrorData(contentType, json, text)
       case Ok(body) => if ErrorMentions(body.error, "already exists") then body.existing else None
       case Err(_) => None)
    case _ => None
  }

  /** The form after a reply: a conflict that carries the stored record loads that record. */
  function AfterReply(m: MoralDomain, reply: Reply<StoredDomain>): MoralDomain {
    if ConflictRecord(reply).Some? then FromStored(ConflictRecord(reply).value) else m
  }

  /**
   * The form changes only on a conflict, and never after an accepted
   * submission; when the stored record names its domain, the conflict
   * notice names the domain the form now shows.
   */
  lemma PrefillOnlyOnConflict(m: MoralDomain, reply: Reply<StoredDomain>)
    ensures AfterReply(m, reply) != m ==> SubmitNotice(reply, m.domain_name).AlreadyExists?
    ensures reply.Accepted? ==> AfterReply(m, reply) == m
    ensures ConflictRecord(reply).Some? && ConflictRecord(reply).value.domain != "" ==>
      SubmitNotice(reply, m.domain_name) == AlreadyExists(AfterReply(m, reply).domain_name)
  {
  }

  /** A plain-text reply is a conflict exactly when its text mentions "already exists"; it never prefills. */
  lemma PlainTextConflict(contentType: Option<string>, json: Result<ErrorBody<StoredDomain>, string>, text: string, m: MoralDomain)
    requires !IsJsonContentType(contentType)
    ensures SubmitNotice(Rejected(contentType, json, text), m.domain_name).AlreadyExists? <==> Contains(text, "already exists")
    ensures AfterReply(m, Rejected(contentType, json, text)) == m
  {
    if text == "" {
      ContainsNothingInEmpty("already exists");
    }
  }

  class SubmitView {
    var formData: MoralDomain
    var isSubmitting: bool
    var requests: seq<Request>

    predicate Valid()
      reads this
    {
      !isSubmitting
    }

    /** The form opens on the default record; its policy text, source lists and rationale are given. */
    constructor (policy: string, tier1: seq<string>, tier2: seq<string>, tier3: seq<string>, rationale: string)
      ensures Valid() && requests == []
      ensures formData == MoralDomain(DefaultName, DefaultPriority, DefaultAnchor, DefaultOverride, DefaultBinding,
                                      DefaultName, policy, tier1, tier2, tier3, rationale)
    {
      formData := MoralDomain(DefaultName, DefaultPriority, DefaultAnchor, DefaultOverride, DefaultBinding,
                              DefaultName, policy, tier1, tier2, tier3, rationale);
      isSubmitting := false;
      requests := [];
    }

    method HandleChange(f: TextField, value: string)
      modifies this`formData
      ensures formData == WithText(old(formData), f, value)
    {
      formData := WithText(formData, f, value);
    }

    method HandleArrayChange(f: ListField, text: string)
      modifies this`formData
      ensures formData == WithSources(old(formData), f, text)
    {
      formData := WithSources(formData, f, text);
    }

    /**
     * `handleSubmit`: the form is posted without any check of its own; a
     * conflict that carries the stored record loads it into the form.
     */
    method HandleSubmit(reply: Reply<StoredDomain>) returns (notice: Notice)
      requires Valid()
      modifies this`formData, this`requests, this`isSubmitting
      ensures Valid()
      ensures requests == old(requests) + [IngestMoralDomain(old(formData))]
      ensures notice == SubmitNotice(reply, old(formData).domain_name)
      ensures formData == AfterReply(old(formData), reply)
    {
      isSubmitting := true;
      requests := requests + [IngestMoralDomain(formData)];
      notice := SubmitNotice(reply, formData.domain_name);
      formData := AfterReply(formData, reply);
      isSubmitting := false;
    }
  }
}

=== FILE: text.dfy ===
/**
 * The string operations the client applies to form input: `trim`, `toLowerCase`,
 * `includes`, `split` on one character and `join`. Whitespace and letter case are
 * restricted to ASCII.
 */
module Text {

  /** The ASCII characters `String.prototype.trim` strips: space, tab, LF, VT, FF, CR. */
  predicate IsSpace(c: char) {
    c == ' ' || c == '\t' || c == '\n' || c == '\U{000B}' || c == '\U{000C}' || c == '\r'
  }

  predicate AllSpace(s: string) {
    forall i :: 0 <= i < |s| ==> IsSpace(s[i])
  }

  /** No whitespace at either end. */
  predicate Trimmed(s: string) {
    s == [] || (!IsSpace(s[0]) && !IsSpace(s[|s| - 1]))
  }

  /** `s.trimStart()`. */
  function TrimStart(s: string): string {
    if |s| > 0 && IsSpace(s[0]) then TrimStart(s[1..]) else s
  }

  /** `s.trimEnd()`. */
  function TrimEnd(s: string): string {
    if |s| > 0 && IsSpace(s[|s| - 1]) then TrimEnd(s[..|s| - 1]) else s
  }

  /** Trimming the start drops a whitespace prefix and nothing else. */
  lemma {:induction false} TrimStartSuffix(s: string)
    ensures |TrimStart(s)| <= |s| && TrimStart(s) == s[|s| - |TrimStart(s)|..]
    ensures AllSpace(s[..|s| - |TrimStart(s)|])
    ensures TrimStart(s) == [] || !IsSpace(TrimStart(s)[0])
  {
    if |s| > 0 && IsSpace(s[0]) {
      var r := TrimStart(s[1..]);
      TrimStartSuffix(s[1..]);
      assert s[..|s| - |r|] == [s[0]] + s[1..][..|s| - 1 - |r|];
    }
  }

  /** Trimming the end drops a whitespace suffix and nothing else. */
  lemma {:induction false} TrimEndPrefix(s: string)
    ensures |TrimEnd(s)| <= |s| && TrimEnd(s) == s[..|TrimEnd(s)|]
    ensures AllSpace(s[|TrimEnd(s)|..])
    ensures TrimEnd(s) == [] || !IsSpace(TrimEnd(s)[|TrimEnd(s)| - 1])
  {
    if |s| > 0 && IsSpace(s[|s| - 1]) {
      var r := TrimEnd(s[..|s| - 1]);
      TrimEndPrefix(s[..|s| - 1]);
      assert s[|r|..] == s[..|s| - 1][|r|..] + [s[|s| - 1]];
    }
  }

  /** `s.trim()`. */
  function Trim(s: string): (r: string)
    ensures Trimmed(r) && |r| <= |s|
    ensures forall c :: c in r ==> c in s
    ensures r == [] <==> AllSpace(s)
    ensures Trimmed(s) ==> r == s
  {
    var a := TrimStart(s);
    var r := TrimEnd(a);
    TrimStartSuffix(s);
    TrimEndPrefix(a);
    assert r != [] ==> r[0] == a[0];
    assert forall c :: c in r ==> c in a;
    assert forall c :: c in a ==> c in s;
    assert r == [] ==> s == s[..|s| - |a|] + a[|r|..];
    r
  }

  lemma TrimLeadingSpace(c: char, s: string)
    requires IsSpace(c)
    ensures Trim([c] + s) == Trim(s)
  {
    assert ([c] + s)[1..] == s;
  }

  function LowerChar(c: char): char {
    if 'A' <= c <= 'Z' then (c as int + 32) as char else c
  }

  /** `s.toLowerCase()`, ASCII letters only. */
  function ToLower(s: string): (r: string)
    ensures |r| == |s|
    ensures forall i :: 0 <= i < |s| ==> r[i] == LowerChar(s[i])
  {
    seq(|s|, i requires 0 <= i < |s| => LowerChar(s[i]))
  }

  /** `s.includes(sub)`: `sub` occurs in `s` at some position. */
  predicate Contains(s: string, sub: string)
    decreases |s|
  {
    sub <= s || (|s| > 0 && Contains(s[1..], sub))
  }

  /** A prefix without the first character of `sub` can neither hold nor start an occurrence of it. */
  lemma {:induction false} ContainsAfterPrefix(p: string, t: string, sub: string)
    requires sub != [] && sub[0] !in p
    ensures Contains(p + t, sub) <==> Contains(t, sub)
  {
    if p == [] {
      assert p + t == t;
    } else {
      assert (p + t)[1..] == p[1..] + t;
      assert (p + t)[0] == p[0];
      ContainsAfterPrefix(p[1..], t, sub);
    }
  }

  /** `s.split(sep)` for a one-character separator: always at least one piece. */
  function Split(s: string, sep: char): (pieces: seq<string>)
    ensures |pieces| >= 1
  {
    if s == [] then [""]
    else
      var rest := Split(s[1..], sep);
      if s[0] == sep then [""] + rest else [[s[0]] + rest[0]] + rest[1..]
  }

  /** No piece contains the separator. */
  lemma {:induction false} SplitPiecesFree(s: string, sep: char)
    ensures forall p :: p in Split(s, sep) ==> sep !in p
  {
    if s != [] {
      SplitPiecesFree(s[1..], sep);
      var rest := Split(s[1..], sep);
      if s[0] != sep {
        assert forall p :: p in rest[1..] ==> p in rest;
        assert rest[0] in rest;
      }
    }
  }

  /** `parts.join(delim)`. */
  function Join(parts: seq<string>, delim: string): string {
    if parts == [] then ""
    else if |parts| == 1 then parts[0]
    else parts[0] + delim + Join(parts[1..], delim)
  }

  /** Splitting and joining back with the separator gives the original text. */
  lemma {:induction false} JoinSplit(s: string, sep: char)
    ensures Join(Split(s, sep), [sep]) == s
  {
    if s != [] {
      var rest := Split(s[1..], sep);
      JoinSplit(s[1..], sep);
      if s[0] != sep && |rest| > 1 {
        assert Join(rest, [sep]) == rest[0] + [sep] + Join(rest[1..], [sep]);
        assert ([[s[0]] + rest[0]] + rest[1..])[1..] == rest[1..];
      } else if s[0] == sep {
        assert ([""] + rest)[1..] == rest;
      }
    }
  }

  /** Splitting at a separator occurrence splits both sides independently. */
  lemma {:induction false} SplitAround(a: string, b: string, sep: char)
    ensures Split(a + [sep] + b, sep) == Split(a, sep) + Split(b, sep)
  {
    if a == [] {
      assert a + [sep] + b == [sep] + b;
      assert ([sep] + b)[1..] == b;
    } else {
      var x := a + [sep] + b;
      assert x[0] == a[0] && x[1..] == a[1..] + [sep] + b;
      SplitAround(a[1..], b, sep);
    }
  }

  lemma {:induction false} SplitFree(a: string, sep: char)
    requires sep !in a
    ensures Split(a, sep) == [a]
  {
    if a != [] {
      SplitFree(a[1..], sep);
      assert [a[0]] + a[1..] == a;
    }
  }

  /** Joining separator-free pieces and splitting again gives the pieces back. */
  lemma {:induction false} SplitJoin(parts: seq<string>, sep: char)
    requires |parts| >= 1
    requires forall p :: p in parts ==> sep !in p
    ensures Split(Join(parts, [sep]), sep) == parts
  {
    if |parts| == 1 {
      SplitFree(parts[0], sep);
    } else {
      SplitJoin(parts[1..], sep);
      SplitFree(parts[0], sep);
      SplitAround(parts[0], Join(parts[1..], [sep]), sep);
      assert [parts[0]] + parts[1..] == parts;
    }
  }
}

=== FILE: upload_data.dfy ===
/** The book ingest form: its state, the lookup by source id, and the submission. */
module UploadData {
  import opened Js
  import opened Text
  import opened Seqs
  import opened Lists
  import opened JsNumber
  import opened FormKit
  import opened BookRecord

  /** The requests the form issues. */
  datatype Request =
    | DomainList
    | LastChunk(id: string)  // GET of the last chunk stored under a source id
    | IngestBook(body: Book)

  const ConnectFallback := "Failed to connect to server. Please check if the API is running."

  /**
   * The lookup merge: title, author, tier, ISBN and publication date are taken
   * from the record when truthy (the title falling back to `source_name`),
   * tags and domains when they are arrays; source id, content and chapter are
   * kept.
   */
  function MergeLookup(prev: Book, data: Snapshot): (r: Book)
    ensures r.sourceId == prev.sourceId && r.content == prev.content && r.chapter == prev.chapter
    ensures r.title == SnapshotTitle(data, prev.title)
    ensures r.author == (if TruthyStr(data.author) then data.author.value else prev.author)
    ensures r.tier == (if TruthyNum(data.tier) then data.tier.value else prev.tier)
    ensures r.isbn == (if TruthyStr(data.isbn) then data.isbn.value else prev.isbn)
    ensures r.publication_date == (if TruthyStr(data.publication_date) then data.publication_date.value else prev.publication_date)
    ensures r.tags == (if data.tags.Some? then data.tags.value else prev.tags)
    ensures r.domain_ref == (if data.domain_ref.Some? then data.domain_ref.value else prev.domain_ref)
    ensures prev.tier != 0 ==> r.tier != 0
  {
    prev.(
      title := SnapshotTitle(data, prev.title),
      author := OrStr(data.author, prev.author),
      tier := OrNum(data.tier, prev.tier),
      isbn := OrStr(data.isbn, prev.isbn),
      publication_date := OrStr(data.publication_date, prev.publication_date),
      tags := ArrayOr(data.tags, prev.tags),
      domain_ref := ArrayOr(data.domain_ref, prev.domain_ref))
  }

  /** A record with nothing in it changes nothing. */
  lemma MergeEmpty(prev: Book)
    ensures MergeLookup(prev, EmptySnapshot) == prev
  {
  }

  /** Merging the same record twice is merging it once. */
  lemma MergeIdempotent(prev: Book, data: Snapshot)
    ensures MergeLookup(MergeLookup(prev, data), data) == MergeLookup(prev, data)
  {
  }

  /**
   * Merging a book's own record restores every field the merge takes: the
   * result is that book with the form's source id, content and chapter.
   */
  lemma MergeOwnRecord(prev: Book, b: Book)
    requires b.title != "" && b.author != "" && b.tier != 0 && b.isbn != "" && b.publication_date != ""
    ensures MergeLookup(prev, ToSnapshot(b)) == b.(sourceId := prev.sourceId, content := prev.content, chapter := prev.chapter)
  {
  }

  /** The book form demands a title, an author, a source id and at least one domain. */
  predicate MissingRequired(b: Book) {
    b.title == "" || b.author == "" || b.sourceId == "" || |b.domain_ref| == 0
  }

  /** Content, ISBN, publication date, chapter and tags are optional; a tier of 0 is not checked. */
  lemma OptionalFields(b: Book, content: string, isbn: string, date: string, chapter: string, tags: seq<string>, tier: int)
    ensures MissingRequired(b) ==
            MissingRequired(b.(content := content, isbn := isbn, publication_date := date, chapter := chapter, tags := tags, tier := tier))
  {
  }

  /** The form after an accepted submission: the empty book with the first domain selected. */
  function ResetBook(domains: seq<DomainOption>): (b: Book)
    ensures b.domain_ref == FirstDomainRef(domains)
    ensures b.(domain_ref := []) == DefaultBook
  {
    DefaultBook.(domain_ref := FirstDomainRef(domains))
  }

  /** The notice for a reply to the ingest request: without an error text the reply is unexpected. */
  function SubmitNotice(reply: Reply<Snapshot>, title: string): (n: Notice)
    ensures n == Submitted <==> reply.Accepted?
    ensures n != Failed("")
    ensures reply.Thrown? ==> n.ConnectionError? && n.detail != ""
    ensures n.ConnectionError? ==> n.detail != ""
  {
    IngestNotice(reply, title, None, ConnectFallback)
  }

  class BookUploadView {
    var formData: Book
    var isSubmitting: bool
    var domains: seq<DomainOption>
    var loadingDomains: bool
    var loadingChunk: bool
    var tagInput: string
    var requests: seq<Request>

    /** Between handlers no request is in flight, and the tier is never 0. */
    predicate Valid()
      reads this
    {
      !isSubmitting && !loadingChunk && formData.tier != 0
    }

    constructor ()
      ensures Valid()
      ensures formData == DefaultBook && domains == [] && loadingDomains && tagInput == "" && requests == []
    {
      formData := DefaultBook;
      isSubmitting := false;
      domains := [];
      loadingDomains := true;
      loadingChunk := false;
      tagInput := "";
      requests := [];
    }

    /**
     * The domain list arrives (`Some`) or fails to load (`None`); an empty
     * selection then becomes the first domain.
     */
    method LoadDomains(reply: Option<seq<DomainOption>>)
      requires Valid()
      modifies this`domains, this`formData, this`requests, this`loadingDomains
      ensures Valid()
      ensures !loadingDomains && requests == old(requests) + [DomainList]
      ensures reply.Some? ==>
        domains == reply.value && formData == old(formData).(domain_ref := InitialDomainRef(old(formData.domain_ref), reply.value))
      ensures reply.None? ==> domains == old(domains) && formData == old(formData)
    {
      requests := requests + [DomainList];
      if reply.Some? {
        domains := reply.value;
        formData := formData.(domain_ref := InitialDomainRef(formData.domain_ref, reply.value));
      }
      loadingDomains := false;
    }

    method HandleChange(f: Field, value: string)
      requires Valid()
      modifies this`formData
      ensures Valid()
      ensures formData == WithField(old(formData), f, value)
    {
      formData := WithField(formData, f, value);
    }

    method SetTagInput(text: string)
      modifies this`tagInput
      ensures tagInput == text
    {
      tagInput := text;
    }

    /** `syncTags`: the tag list becomes what the tag text parses to. */
    method SyncTags()
      requires Valid()
      modifies this`formData
      ensures Valid()
      ensures formData == old(formData).(tags := ParseTags(tagInput))
    {
      formData := formData.(tags := ParseTags(tagInput));
    }

    /**
     * The effect on `formData.tags`, run after every handler that replaces the
     * tag list: the tag text is rewritten from the list.
     */
    method TagsEffect()
      modifies this`tagInput
      ensures tagInput == TagsText(formData.tags)
    {
      tagInput := TagsText(formData.tags);
    }

    /** A domain checkbox changed. */
    method ToggleDomainRef(id: string, checked: bool)
      requires Valid()
      modifies this`formData
      ensures Valid()
      ensures formData == old(formData).(domain_ref := ToggleDomain(old(formData.domain_ref), id, checked))
    {
      formData := formData.(domain_ref := ToggleDomain(formData.domain_ref, id, checked));
    }

    /**
     * `handleSourceIdBlur`: a source id that is blank once trimmed looks
     * nothing up; otherwise the trimmed id is looked up and a found record is
     * merged into the form.
     */
    method BlurSourceId(lookup: Lookup) returns (notice: Option<LookupNotice>)
      requires Valid()
      modifies this`formData, this`requests, this`loadingChunk
      ensures Valid()
      ensures Trim(old(formData.sourceId)) == "" ==>
        notice.None? && requests == old(requests) && formData == old(formData)
      ensures Trim(old(formData.sourceId)) != "" ==>
        && requests == old(requests) + [LastChunk(Trim(old(formData.sourceId)))]
        && notice == Some(LookupNoticeOf(lookup))
        && formData == (if lookup.Found? then MergeLookup(old(formData), lookup.record) else old(formData))
    {
      var id := Trim(formData.sourceId);
      if id == "" {
        return None;
      }
      loadingChunk := true;
      requests := requests + [LastChunk(id)];
      if lookup.Found? {
        formData := MergeLookup(formData, lookup.record);
      }
      notice := Some(LookupNoticeOf(lookup));
      loadingChunk := false;
    }

    /**
     * `handleSubmit`: a form missing a required field sends nothing; otherwise
     * the form is posted, an accepted submission resets it, and any other
     * reply leaves it as it was. `isSubmitting` ends false on every path.
     */
    method HandleSubmit(reply: Reply<Snapshot>) returns (notice: Notice)
      requires Valid()
      modifies this`formData, this`requests, this`isSubmitting
      ensures Valid()
      ensures MissingRequired(old(formData)) ==>
        notice == MissingFields && requests == old(requests) && formData == old(formData)
      ensures !MissingRequired(old(formData)) ==>
        && requests == old(requests) + [IngestBook(old(formData))]
        && notice == SubmitNotice(reply, old(formData).title)
        && formData == (if reply.Accepted? then ResetBook(domains) else old(formData))
    {
      isSubmitting := true;
      if MissingRequired(formData) {
        isSubmitting := false;
        return MissingFields;
      }
      requests := requests + [IngestBook(formData)];
      notice := SubmitNotice(reply, formData.title);
      if reply.Accepted? {
        formData := ResetBook(domains);
      }
      isSubmitting := false;
    }
  }
}
